=== FILE: README.md ===
# FirmAE docker helpers: sandbox targeting, checkpoints and QEMU live snapshots

FirmAE emulates firmware images inside Docker containers, called sandboxes
here. Two command-line scripts drive them:

- `docker-helper.py` creates a sandbox named `docker<idx>_<sanitized firmware
  file name>`, checkpoints it (`-ckc`), restores it (`-ckr`) and resets the
  emulated device (`-reset`).
- `docker-helper-qemu.py` finds the sandbox and emulation instance of a
  firmware file. It prepares the instance for QEMU live snapshots
  (`-prepare`), or it sends one batch of human-monitor (HMP) commands
  (`-qmsave`, `-qmload`, `-qmls`, `-qmdel`).

This project models the deterministic layer between the command line and the
external programs. Each external call is replaced by an oracle value: its
exit status and captured output, or the fact that starting it raised. Every
flow is a pure function of those values. It returns a verdict and the trace
of commands it issued, in order. The trace entries are docker argvs, scripts
run inside a container, monitor batches and network set-ups.

The modules follow the scripts:

| file | module | what it holds |
|---|---|---|
| exec.dfy | `Exec` | oracle results (`Proc`, `Attempt`) and the command trace |
| text.dfy | `Text` | the parts of Python's `str` the scripts use |
| paths.dfy | `Paths` | `os.path.basename`, `os.path.dirname`, the extension stem |
| naming.dfy | `Naming` | the sanitizer, the name builder, the name matcher, the running-first search |
| listing.dfy | `Listing` | the two `get_container_list` parsers of `docker ps` output |
| argv.dfy | `Argv` | the `docker run` and `docker checkpoint create` argvs, the global-option filter |
| checkpoint.dfy | `Checkpoint` | `create_checkpoint` with its two probes, `restore_checkpoint` |
| instances.dfy | `Instances` | reading the instance id from the scratch-directory scan |
| monitor.dfy | `Monitor` | the HMP payload and the four snapshot batches |
| prepare.dfy | `Prepare` | `ensure_qcow2_and_restart` and its 180-probe poll |
| qemucli.dfy | `QemuCli` | `main` of docker-helper-qemu.py |
| helpercli.dfy | `HelperCli` | the `-ckc`, `-ckr` and `-reset` commands of docker-helper.py |
| crosscheck.dfy | `CrossCheck` | how the two scripts' sandbox searches differ on the same listing |

## Model

| member | source | states |
|---|---|---|
| Naming.Sanitize | docker-helper.py:68 | each of '/', ' ' and '.' becomes '_'; every other character is kept in place and the length is unchanged |
| Naming.ContainerName | docker-helper.py:232 | the sandbox name `docker{idx}_{sanitized}` starts with "docker" and ends with "_" and the sanitized file name; ContainerNameMatches and ParseContainerName pin the index part |
| Naming.ParseName | docker-helper.py:70-71 | a name the matcher decomposes is exactly "docker", a non-empty run of ASCII digits, "_" and the rest |
| Naming.Matches | docker-helper.py:70-77 | a name the matcher accepts for a sanitized file name starts with "docker" and ends with "_" and that name; MatchesIffPattern proves it accepts exactly the names of the pattern |
| Naming.MatchesIffPattern | docker-helper.py:70-71 | the matcher accepts a name exactly when it has the form `docker<digits>_<sanitized>`: both directions, no extra prefix or suffix, at least one digit |
| Naming.DigitsThenUnderscore | docker-helper.py:70-71 | in `docker<digits>_<s>` the matcher reads back exactly those digits and exactly `s` |
| Naming.ContainerNameMatches | docker-helper.py:229-232 | the name `run_core` builds for a firmware file matches that file's pattern if and only if the index is not negative |
| Naming.ParseContainerName | docker-helper.py:229-232 | reading a built name back gives its index and the sanitized file name |
| Naming.PatternDeterminesFirmware | docker-helper.py:70-71 | a container name matches the pattern of at most one sanitized file name |
| Naming.SanitizeCollides | docker-helper.py:68 | distinct file names ("a.b", "a_b", "a b") share one sanitized name |
| Naming.FirstMatch | docker-helper.py:75-77 | the index found matches and no earlier name matches; no index means no name matches |
| Naming.Locate | docker-helper.py:65-86 | a running match wins and is the first running match; a stopped result is the first match of the full list when no running name matches; nothing is found exactly when neither list matches |
| Naming.LocateTrace | docker-helper.py:73-83 | at most two listings: the running listing always comes first, and the second is `docker ps -a`, requested exactly when no running name matches |
| Listing.ParseLine | docker-helper.py:55-58 | a line with a space is name, one space and status, with no space in the name; a line without a space is its stripped text with an empty status |
| Listing.NonBlankLines | docker-helper.py:47 | keeps exactly the lines that are not all whitespace, and no others |
| Listing.NonBlankLinesAppend | docker-helper.py:47 | the filter distributes over concatenation, so it keeps the input order and every repeat |
| Listing.NonBlankLinesOne | docker-helper.py:47 | a single line is kept exactly when it is not all whitespace |
| Listing.KeptNames | docker-helper.py:52-62 | never more names than lines, and no empty name; KeptNamesSound, KeptNamesComplete and KeptNamesAppend pin which names are kept and in what order |
| Listing.KeptNamesSound | docker-helper.py:54-62 | every kept name is the non-empty name of a line that is not paused, unless paused lines are wanted |
| Listing.KeptNamesComplete | docker-helper.py:54-62 | every such line's name is kept |
| Listing.KeptNamesAppend | docker-helper.py:51-62 | keeping names distributes over concatenation, so kept names follow the listing order, repeats included |
| Listing.KeptNamesOne | docker-helper.py:53-62 | a single line gives its name exactly when the line is listed, and nothing otherwise |
| Listing.ContainerNames | docker-helper.py:37-63 | a failed or raising `docker ps` gives no names; otherwise the kept names in reverse listing order, none empty |
| Listing.EntryLine | docker-helper.py:55-56 | a line built as `name + " " + status` from a space-free name parses back to that name and status |
| Listing.ParseLines | docker-helper-qemu.py:40-47 | every line is parsed, in order |
| Listing.ContainerEntries | docker-helper-qemu.py:33-48 | a failed `docker ps` gives nothing; otherwise entry k is the parsed k-th non-blank line of `splitlines()`, so there is one entry per such line, in order |
| Listing.SplitAgree | docker-helper-qemu.py:40 | splitting at "\n" and at every line boundary agree when "\n" is the text's only line boundary |
| Listing.KeptAllAreNonEmptyNames | docker-helper.py:54-63 | with paused containers wanted, docker-helper.py keeps exactly the non-empty names, in order |
| Listing.HelperListReversesQemuList | docker-helper.py:37-63 | on a listing whose only line breaks are "\n", docker-helper.py with paused containers lists the non-empty names docker-helper-qemu.py parses, reversed |
| Listing.PausedHiddenOnlyByHelper | docker-helper.py:59-60 | a paused container is missing from docker-helper.py's default listing, while docker-helper-qemu.py keeps it with its status |
| Paths.Basename | docker-helper.py:231 | the result has no '/', ends the path, and is preceded by the last '/' |
| Paths.Dirname | docker-helper.py:230 | the result starts the path; it is empty exactly when the path has no '/'; trailing slashes are dropped; when everything before the base name is slashes, the result is exactly those slashes |
| Paths.Stem | docker-helper-qemu.py:195 | the name up to its last '.', or the whole name when it has no '.' |
| Text.Strip | docker-helper-qemu.py:82 | the result is a span of the text with only whitespace before and after it; it is empty exactly when the text is all whitespace, and otherwise starts and ends with a non-space, so nothing but the outer whitespace is removed |
| Text.JoinSplit | docker-helper.py:47 | joining the pieces of `split('\n')` with "\n" gives back the text |
| Text.SplitJoin | docker-helper-qemu.py:139 | splitting the "\n"-join of newline-free pieces gives back the pieces |
| Text.ContainsIff | docker-helper-qemu.py:126 | the substring test holds exactly when the text occurs at some index |
| Text.NatToDecimal | docker-helper.py:232 | the decimal form of an index is a non-empty run of ASCII digits with no leading zero |
| Text.DecimalRoundTrip | docker-helper.py:232 | the digits of an index denote that index |
| Argv.RunArgv | docker-helper.py:301-329 | `docker run -dit`; `--rm` exactly with auto-remove; `--network M` exactly when a network mode is given; both work binds; `-v /dev:/dev` exactly with the device flag; `--name` and the name just before the image, which is last |
| Argv.RunArgvRoundTrip | docker-helper.py:301-329 | reading the argv back recovers every option, both roots, the name and the image |
| Argv.CreatedSandboxIsLocated | docker-helper.py:229-232 | the sandbox `run_core` creates for a firmware path carries a name the locator matches for that file |
| Argv.CheckpointArgv | docker-helper.py:442-447 | `docker checkpoint create`, `--checkpoint-dir D` exactly when a directory is given, `--leave-running` exactly when asked, then the container and the checkpoint |
| Argv.CheckpointArgvRoundTrip | docker-helper.py:442-447 | reading the argv back recovers the directory, the flag, the container and the checkpoint |
| Argv.Positional | docker-helper.py:512-522 | no global option is kept |
| Argv.PositionalAppend | docker-helper.py:512-522 | filtering commutes with concatenation, so the kept arguments keep their relative order |
| Argv.PositionalKeepsPlainArguments | docker-helper.py:512-522 | every other argument is kept as often as it occurs |
| Argv.ParseGlobalOptions | docker-helper.py:507-524 | the rest is the filtered list; each flag is set exactly when its option occurs; the network mode is the one the last `--net=` option names |
| Argv.LastNetIsLastOption | docker-helper.py:518-520 | that mode is the text after "--net=" of the last such option, and there is none exactly when no argument is a `--net=` option |
| Checkpoint.CreateCheckpoint | docker-helper.py:422-456 | the daemon probe comes first and alone ends the trace when it vetoes; otherwise the mount probe is second, and alone follows it when it vetoes; the checkpoint argv is issued exactly when neither probe vetoes, and then it is third and last; success exactly when neither vetoes and the create call succeeds |
| Checkpoint.Guarded | docker-helper.py:425-447 | a step guarded by two probes: the first probe runs first; the second runs next exactly when the first does not veto; the step runs third and last exactly when neither vetoes; nothing else is issued |
| Checkpoint.ProbesPassCheckpoints | docker-helper.py:442-456 | when neither probe vetoes, the checkpoint argv is issued and the create call alone decides success |
| Checkpoint.MountVetoIsNonBlankOutput | docker-helper.py:434-437 | the mount probe vetoes exactly when it exits 0 and prints something that is not whitespace |
| Checkpoint.SaysTrueOfLine | docker-helper.py:426-427 | a one-word daemon answer passes exactly when it is "true" in any letter case, or "1" |
| Checkpoint.ExperimentalDisabledNeverCheckpoints | docker-helper.py:426-429 | a daemon answering "false" makes the call fail without issuing the checkpoint argv |
| Checkpoint.EnabledDaemonCheckpoints | docker-helper.py:424-456 | with the daemon answering "true" and no hugetlbfs mount, the checkpoint is issued and its status is the verdict |
| Checkpoint.RestoreCheckpoint | docker-helper.py:458-477 | stop, then start from the checkpoint; success exactly when the start succeeds; the network is wired exactly on success, as the third and last command; nothing else is issued |
| Instances.FirstLine | docker-helper-qemu.py:82 | the first line of a text is a non-empty prefix with no line break, followed by a line break or the end |
| Instances.InstanceId | docker-helper-qemu.py:74-82 | no instance exactly when the scan fails; an IndexError exactly when it succeeds with blank output; otherwise the first line of the stripped output, non-empty and starting with a non-space |
| Monitor.Payload | docker-helper-qemu.py:137-141 | the payload ends in "\n"; a list is its "\n"-join; a text loses only trailing newlines and never ends in two |
| Monitor.CommandsDelivered | docker-helper-qemu.py:138-139 | the monitor reads back exactly the newline-free commands of a list, in order |
| Monitor.TextPayloadIdempotent | docker-helper-qemu.py:140-141 | sending a text payload again as a text changes nothing |
| Monitor.SnapshotsRunPaused | docker-helper-qemu.py:146-164 | for a newline-free name, `savevm` and `loadvm` come right after "stop" and right before "cont" |
| Monitor.SaveBatchOfTwoLines | docker-helper-qemu.py:148 | a newline in the snapshot name splits the `savevm` line in two |
| Monitor.NewlineInNameAddsCommand | docker-helper-qemu.py:148 | the name "a\nquit" makes the monitor run `quit` while the guest is stopped |
| Monitor.QmSave | docker-helper-qemu.py:146-155 | one save batch is sent; success exactly when the transport exits 0; the corrected announcement only follows success |
| Monitor.SaveAnnouncedWhenListed | docker-helper-qemu.py:153-154 | with the intended check, a successful reply that lists the name is announced |
| Monitor.QmSaveAsWritten | docker-helper-qemu.py:146-155 | the code as written sends the same batch with the same verdict |
| Monitor.SaveAnnouncementMissesName | docker-helper-qemu.py:153-154 | a reply listing "demo1" is not announced as written, but is with the intended check |
| Monitor.QmLoad | docker-helper-qemu.py:158-164 | one load batch is sent; success exactly when the transport exits 0 |
| Monitor.QmLs | docker-helper-qemu.py:167-173 | one list batch is sent; success exactly when the transport exits 0 |
| Monitor.QmDel | docker-helper-qemu.py:176-182 | one delete batch is sent; success exactly when the transport exits 0 |
| Monitor.SaveBatch | docker-helper-qemu.py:148 | the save batch pauses the guest around `savevm <name>` and ends by listing the snapshots |
| Monitor.LoadBatch | docker-helper-qemu.py:159 | the load batch is three commands that pause the guest around `loadvm <name>` |
| Monitor.ListBatch | docker-helper-qemu.py:168 | the list batch is the single command `info snapshots` |
| Monitor.DeleteBatch | docker-helper-qemu.py:177 | the delete batch is `delvm <name>` followed by the list command |
| Prepare.FirstReady | docker-helper-qemu.py:124-128 | the first ready probe within the limit, with no ready probe before it |
| Prepare.Prepared | docker-helper-qemu.py:89-134 | a failed conversion stops after two commands, before the patch, kill and relaunch; a failed relaunch stops after five; success exactly when some probe among the first 180 is ready, with one probe per attempt up to the first ready one; otherwise 180 probes and the log tail |
| Prepare.EnsureQcow2AndRestart | docker-helper-qemu.py:89-134 | the polling loop yields exactly the verdict and trace of `Prepared` |
| Prepare.FirstReadyIs | docker-helper-qemu.py:124-128 | the first ready probe is fixed by the probes before it |
| Prepare.LastProbeCounts | docker-helper-qemu.py:124-128 | a socket first ready at the 180th probe is seen; one ready only after that is not |
| QemuCli.FindContainer | docker-helper-qemu.py:51-60 | a result matches the firmware; running exactly when an unfiltered running name matches; nothing exactly when neither listing matches |
| QemuCli.EnsureRunning | docker-helper-qemu.py:63-71 | a running sandbox needs no command; a stopped one is started and the start's status is the verdict |
| QemuCli.PausedSandboxIsRunningHere | docker-helper-qemu.py:51-60 | a paused sandbox is targeted as running here, while docker-helper.py finds nothing in the same listing |
| QemuCli.Resolve | docker-helper-qemu.py:190-207 | a target is found exactly when a sandbox is located, it is running or starts, and the scan yields an instance; the target is the located sandbox with the scanned instance id; the last command is the scan for the file's stem; no monitor batch is sent; the trace is exactly the listings when no sandbox is located, and otherwise the listings, the start when one was needed and the scan unless the start failed |
| QemuCli.FromSandbox | docker-helper-qemu.py:200-207 | once the sandbox is known: the target is that sandbox and the scanned instance; a failed start ends the trace right after the start, and otherwise exactly the scan follows; no monitor batch is sent |
| QemuCli.QemuMain | docker-helper-qemu.py:185-259 | fewer than two arguments exit 1 with no command; a failed lookup exits 1 right after the lookup's commands; exit 0 exactly when the target is resolved and its mode succeeds (preparation succeeds for `-prepare`; for the monitor modes a known mode, its snapshot name, a ready socket and a delivered batch); an unknown mode exits 1 without a monitor batch |
| QemuCli.Dispatch | docker-helper-qemu.py:197-259 | a failed lookup exits 1 with only the lookup's commands; `-prepare` is the preparation path and every other mode the monitor path; exit 0 exactly when the target exists and its mode succeeds |
| QemuCli.PrepareMode | docker-helper-qemu.py:210-217 | exit 0 exactly when preparation succeeds, and then the snapshot list is requested after it; a failed preparation ends the trace with the preparation's own commands |
| QemuCli.MonitorMode | docker-helper-qemu.py:218-259 | the socket check comes first; a socket that is not ready, an unknown mode or a missing snapshot name exits 1 right after the check; otherwise the mode's batch is always sent right after the check, whatever the transport returns; exit 0 exactly when the socket is ready, the mode is known, its name is given and the batch is delivered |
| QemuCli.SendMode | docker-helper-qemu.py:225-259 | the `qm*` call of a monitor mode sends exactly that mode's batch; success exactly when the transport exits 0 |
| QemuCli.BatchFollowsSocketCheck | docker-helper-qemu.py:218-256 | every successful monitor command ends with a socket check that found the monitor, then its mode's batch |
| QemuCli.DispatchedBatch | docker-helper-qemu.py:218-256 | the same, for any resolved target |
| QemuCli.RouterBasename | docker-helper-qemu.py:194 | "/fw/router_fw.bin" has the file name "router_fw.bin" |
| QemuCli.RouterStem | docker-helper-qemu.py:195 | "router_fw.bin" has the stem "router_fw" |
| HelperCli.CheckExisting | docker-helper.py:65-86 | the running-first search over reversed listings that hide paused sandboxes |
| HelperCli.StartStopped | docker-helper.py:88-100 | one `docker start`; success exactly when it ran and exited 0 |
| HelperCli.CheckpointName | docker-helper.py:598 | the checkpoint name is the third argument when given, and "warm1" otherwise |
| HelperCli.FindSandbox | docker-helper.py:603-612 | a sandbox is found exactly when it is located and, where waking is asked for, it is running or starts; the trace is the listings plus the start when one was needed |
| HelperCli.CreateCommand | docker-helper.py:592-614 | every run starts with the listing the helper's constructor requests (line 528); a missing firmware argument exits 1 after only that listing; exit 0 exactly when the sandbox is found or started and the checkpoint is created, and then the checkpoint argv is in the trace; the trace is that listing, the lookup (and start) and the checkpoint steps |
| HelperCli.RestoreCommand | docker-helper.py:616-632 | every run starts with the constructor's listing, and a missing firmware argument exits 1 after it; exit 0 exactly when a sandbox is located and the restore start succeeds; a located sandbox is always asked to start from the checkpoint; the trace is the constructor's listing, the lookup and, when located, the restore steps |
| HelperCli.UseCleanIgnoresCase | docker-helper.py:642-643 | the clean flag ignores letter case |
| HelperCli.UseClean | docker-helper.py:640-643 | the clean image is asked for exactly when a third argument is given and, lower-cased, is one of "clean", "true", "1", "yes", "y" |
| HelperCli.RestartDevice | docker-helper.py:676-703 | kill and unmount come first; the clean image is copied exactly when asked, right after them; then the relaunch; exit 0 exactly when the relaunch succeeds, and then the network is wired last; the trace holds nothing else |
| HelperCli.ResetCommand | docker-helper.py:634-703 | every run starts with the constructor's listing, and a missing firmware argument exits 1 after it; a sandbox that is not found or does not start ends the trace after the lookup; a scan without an instance ends it right after the scan; otherwise the device restart follows the scan; exit 0 exactly when the sandbox is found or started, the scan yields an instance and the restart succeeds |
| CrossCheck.HelperListsLastFirst | docker-helper.py:37-63 | docker-helper.py lists the names of a two-line listing last line first |
| CrossCheck.QemuListsInOrder | docker-helper-qemu.py:33-48 | docker-helper-qemu.py lists them in listing order |
| CrossCheck.TwoSandboxesDiverge | docker-helper.py:65-86 | with two running sandboxes of one firmware file, docker-helper.py targets the one listed last and docker-helper-qemu.py the one listed first |

## Left out

- `os.path.abspath`: it depends on the working directory, so the firmware path is taken as given. It also normalises the path: it drops a trailing '/' and resolves '.' and '..'. The model skips that step, so "fw/router_fw.bin/" has the base name "router_fw.bin" in the scripts but "" in the model.
- `time.sleep`, logging and printing: they only wait or report.
- The script texts run inside containers: they are recorded by their parameters (`Script` in `Exec`), not as text.
- The results of calls the scripts only log are not inputs. These are the qemu-img installation, the `run.sh` patch, the kill, the unmount, the clean-image copy, the stop before a restore and the log tail.
- `setup_network_access` and `setup_port_forwarding` (routes, socat forwarders, PostgreSQL initialisation): they are recorded as one `WireNetwork` command. An exception raised by them inside `restore_checkpoint` would turn its success into failure; the model assumes they return.
- `run_command` and the `-c`/`-s` broadcast: shell plumbing with no contract.
- The other modes of docker-helper.py (`-d`, `-ec`, `-ea`, `-er`, `-ed`), `runner`, `stop_core`, `remove_container`, `get_container_ip`, and the rest of `run_core` beyond the name and the `docker run` argv. Interactive attach sessions are left out too.
- The dispatch at the top of docker-helper.py's `main` among its modes: `HelperCli` takes the argument list after the global options are filtered and models each command separately. The `docker ps` the `docker_helper` constructor issues before any command (lines 23, 32-34, 528) is the first entry of each command's trace; its result only sets a counter and a failure is caught, so it is not an input.
- Calls outside `try/except` (every `sh`, `docker_exec` and `hmp` call in docker-helper-qemu.py, and the scan, kill, unmount, clean-image copy and relaunch of `-reset` in docker-helper.py, lines 666-693) are modelled as always running to completion with some exit status and output. When starting such a call raises (for example, no docker binary), Python ends the script with status 1 and the trace stops at that call; the model has no such outcome for these calls. Only the calls docker-helper.py wraps in `try/except` have the `Raised` outcome.
- `find_iid_cmd` in `-reset`: it is built and never used.
- Python's `re`: `\d` is modelled as ASCII digits, while Python also accepts other Unicode decimal digits. `$` is modelled as the end of the name, while Python also accepts it before a final "\n". Container names listed by docker hold neither.
- `str.lower()` is modelled on ASCII letters only. The lowered text is only compared with ASCII words, and no other character lowers to the letters involved.
- `splitlines()` treats "\r\n" as one boundary, and the model treats it as two. The extra piece is empty and every caller drops blank lines.
- Prepare.Prepared and QemuCli.QemuMain require at least 180 probe results. The script never makes more than 180 probes, so any further results go unused.
- The effect of `savevm`/`loadvm` on the guest and the contents of `run.sh` are left out: both belong to programs outside these scripts.

## Findings

| source | as written | input that shows it | evidently intended | confidence | as-written member | corrected member |
|---|---|---|---|---|---|---|
| docker-helper-qemu.py:153 | `"{name}" in r.stdout` has no `f` prefix, so it looks for the literal text "{name}" | snapshot "demo1" with monitor reply "1 demo1": the save is not announced | test whether the reply mentions the snapshot name | high, not executed | Monitor.QmSaveAsWritten, Monitor.SaveAnnouncementMissesName | Monitor.QmSave, Monitor.SaveAnnouncedWhenListed |

=== FILE: argv.dfy ===
/**
 The argument vectors docker-helper.py builds: `docker run` for a new
 sandbox, `docker checkpoint create`, and the filtering of the global options
 `--rm`, `--with-dev` and `--net=<mode>` out of the command line.
 */
module Argv {

  import opened Exec
  import opened Text
  import opened Paths
  import opened Naming

  // ---- docker run ----

  datatype RunOptions = RunOptions(autoRemove: bool, network: Option<string>, withDev: bool)

  datatype RunRequest = RunRequest(
    options: RunOptions,
    firmaeRoot: string,    // host directory mounted at /work/FirmAE
    firmwareRoot: string,  // host directory mounted at /work/firmwares
    name: string,          // container name
    image: string)         // docker image

  /** Python truthiness of `network_mode`: neither None nor the empty string. */
  predicate NetworkGiven(network: Option<string>) {
    network.Some? && network.value != ""
  }

  const FirmaeMount := ":/work/FirmAE"
  const FirmwareMount := ":/work/firmwares"
  const FixedTail := ["--mount", "type=tmpfs,destination=/dev/hugepages",
                      "--security-opt", "seccomp=unconfined", "--privileged=true", "--name"]

  /** The `docker run` argv of `run_core`. */
  function RunArgv(q: RunRequest): (r: seq<string>)
    ensures var o := q.options;
            var net := if o.autoRemove then 4 else 3;
            var binds := if NetworkGiven(o.network) then net + 2 else net;
            var dev := binds + 4;
            && |r| == dev + (if o.withDev then 2 else 0) + 8
            && r[..3] == ["docker", "run", "-dit"]
            && (r[3] == "--rm" <==> o.autoRemove)
            && (r[net] == "--network" <==> NetworkGiven(o.network))
            && (NetworkGiven(o.network) ==> r[net + 1] == o.network.value)
            && r[binds..binds + 4] == ["-v", q.firmaeRoot + FirmaeMount, "-v", q.firmwareRoot + FirmwareMount]
            && (r[dev] == "-v" <==> o.withDev)
            && (o.withDev ==> r[dev + 1] == "/dev:/dev")
            && r[|r| - 3..] == ["--name", q.name, q.image]
  {
    var o := q.options;
    ["docker", "run", "-dit"]
    + (if o.autoRemove then ["--rm"] else [])
    + (if NetworkGiven(o.network) then ["--network", o.network.value] else [])
    + ["-v", q.firmaeRoot + FirmaeMount, "-v", q.firmwareRoot + FirmwareMount]
    + (if o.withDev then ["-v", "/dev:/dev"] else [])
    + FixedTail + [q.name, q.image]
  }

  /** Removes a known suffix. */
  function DropSuffix(s: string, suffix: string): string
    requires EndsWith(s, suffix)
  {
    s[..|s| - |suffix|]
  }

  /** Reads a `docker run` argv of the shape `run_core` emits back into the request. */
  function ParseRunArgv(a: seq<string>): Option<RunRequest> {
    if |a| < 3 || a[..3] != ["docker", "run", "-dit"] then None
    else
      var rm := |a| > 3 && a[3] == "--rm";
      var i := if rm then 4 else 3;
      var net := i + 1 < |a| && a[i] == "--network";
      var network := if net then Some(a[i + 1]) else None;
      var j := if net then i + 2 else i;
      if |a| < j + 4 || a[j] != "-v" || a[j + 2] != "-v"
         || !EndsWith(a[j + 1], FirmaeMount) || !EndsWith(a[j + 3], FirmwareMount) then None
      else
        var k := j + 4;
        var dev := k + 1 < |a| && a[k] == "-v" && a[k + 1] == "/dev:/dev";
        var m := if dev then k + 2 else k;
        if |a| != m + 8 || a[m..m + 6] != FixedTail then None
        else Some(RunRequest(RunOptions(rm, network, dev),
                             DropSuffix(a[j + 1], FirmaeMount), DropSuffix(a[j + 3], FirmwareMount),
                             a[m + 6], a[m + 7]))
  }

  /** What the argv can carry: an empty network mode is the same as none. */
  function Effective(q: RunRequest): RunRequest {
    q.(options := q.options.(network := if NetworkGiven(q.options.network) then q.options.network else None))
  }

  /** Every request survives the trip through its argv. */
  lemma RunArgvRoundTrip(q: RunRequest)
    ensures ParseRunArgv(RunArgv(q)) == Some(Effective(q))
  {
    var a := RunArgv(q);
    var o := q.options;
    var i := if o.autoRemove then 4 else 3;
    var j := if NetworkGiven(o.network) then i + 2 else i;
    assert DropSuffix(q.firmaeRoot + FirmaeMount, FirmaeMount) == q.firmaeRoot;
    assert DropSuffix(q.firmwareRoot + FirmwareMount, FirmwareMount) == q.firmwareRoot;
    var m := j + 4 + (if o.withDev then 2 else 0);
    assert a[m..m + 6] == FixedTail;
  }

  /** The sandbox `run_core` creates for a firmware path is named so that the
      locator for the same firmware file finds it. */
  lemma CreatedSandboxIsLocated(o: RunOptions, firmaeRoot: string, image: string, idx: nat, path: string)
    ensures var r := RunArgv(RunRequest(o, firmaeRoot, Dirname(path), ContainerName(idx, Basename(path)), image));
            Matches(r[|r| - 2], Sanitize(Basename(path)))
  {
    ContainerNameMatches(idx, Basename(path));
  }

  // ---- docker checkpoint create ----

  /** Python truthiness of `checkpoint_dir`. */
  predicate DirGiven(dir: Option<string>) {
    dir.Some? && dir.value != ""
  }

  /** The `docker checkpoint create` argv of `create_checkpoint`. */
  function CheckpointArgv(dir: Option<string>, leaveRunning: bool, container: string, checkpoint: string): (r: seq<string>)
    ensures |r| == 5 + (if DirGiven(dir) then 2 else 0) + (if leaveRunning then 1 else 0)
    ensures r[..3] == ["docker", "checkpoint", "create"]
    ensures DirGiven(dir) ==> r[3..5] == ["--checkpoint-dir", dir.value]
    ensures leaveRunning ==> r[|r| - 3] == "--leave-running"
    ensures r[|r| - 2..] == [container, checkpoint]
  {
    ["docker", "checkpoint", "create"]
    + (if DirGiven(dir) then ["--checkpoint-dir", dir.value] else [])
    + (if leaveRunning then ["--leave-running"] else [])
    + [container, checkpoint]
  }

  datatype CheckpointRequest = CheckpointRequest(dir: Option<string>, leaveRunning: bool, container: string, checkpoint: string)

  /** Reads a checkpoint argv back; the number of arguments tells which of the
      optional flags are present, so odd container names cannot confuse it. */
  function ParseCheckpointArgv(a: seq<string>): Option<CheckpointRequest> {
    if |a| < 5 || |a| > 8 || a[..3] != ["docker", "checkpoint", "create"] then None
    else
      var dir := |a| >= 7;
      var leave := |a| == 6 || |a| == 8;
      if dir && a[3] != "--checkpoint-dir" then None
      else if leave && a[|a| - 3] != "--leave-running" then None
      else Some(CheckpointRequest(if dir then Some(a[4]) else None, leave, a[|a| - 2], a[|a| - 1]))
  }

  lemma CheckpointArgvRoundTrip(q: CheckpointRequest)
    ensures ParseCheckpointArgv(CheckpointArgv(q.dir, q.leaveRunning, q.container, q.checkpoint))
            == Some(q.(dir := if DirGiven(q.dir) then q.dir else None))
  {
  }

  // ---- global options ----

  predicate IsNetOption(a: string) {
    StartsWith(a, "--net=")
  }

  predicate IsGlobalOption(a: string) {
    a == "--rm" || a == "--with-dev" || IsNetOption(a)
  }

  /** The arguments that are not global options, in their original order. */
  function Positional(args: seq<string>): (r: seq<string>)
    ensures forall k :: 0 <= k < |r| ==> !IsGlobalOption(r[k])
    ensures |r| <= |args|
  {
    if args == [] then []
    else (if IsGlobalOption(args[0]) then [] else [args[0]]) + Positional(args[1..])
  }

  /** Filtering commutes with concatenation: the relative order of the kept
      arguments is the order they had. */
  lemma {:induction false} PositionalAppend(a: seq<string>, b: seq<string>)
    ensures Positional(a + b) == Positional(a) + Positional(b)
  {
    if a == [] {
      assert a + b == b;
    } else {
      assert (a + b)[1..] == a[1..] + b;
      PositionalAppend(a[1..], b);
    }
  }

  lemma {:induction false} PositionalKeepsPlainArguments(args: seq<string>, x: string)
    requires !IsGlobalOption(x)
    ensures multiset(Positional(args))[x] == multiset(args)[x]
  {
    if args != [] {
      PositionalKeepsPlainArguments(args[1..], x);
      assert args == [args[0]] + args[1..];
    }
  }

  /** Extending a prefix by one argument. */
  lemma PrefixStep(argv: seq<string>, n: nat, x: string)
    requires n < |argv|
    ensures Positional(argv[..n + 1]) == Positional(argv[..n]) + Positional([argv[n]])
    ensures x in argv[..n + 1] <==> x in argv[..n] || x == argv[n]
  {
    assert argv[..n + 1] == argv[..n] + [argv[n]];
    PositionalAppend(argv[..n], [argv[n]]);
  }

  /** The network mode the last `--net=` option names, if there is one. */
  function LastNet(args: seq<string>): Option<string> {
    if args == [] then None
    else if IsNetOption(args[|args| - 1]) then Some(args[|args| - 1][6..])
    else LastNet(args[..|args| - 1])
  }

  /** The mode comes from the last `--net=` option: the text after its first
      '='; there is none exactly when no argument is a `--net=` option. */
  lemma {:induction false} LastNetIsLastOption(args: seq<string>)
    ensures LastNet(args).None? <==> forall i :: 0 <= i < |args| ==> !IsNetOption(args[i])
    ensures LastNet(args).Some? ==>
              exists i :: 0 <= i < |args| && args[i] == "--net=" + LastNet(args).value
                          && forall j :: i < j < |args| ==> !IsNetOption(args[j])
  {
    if args != [] {
      var n := |args| - 1;
      var a := args[n];
      if IsNetOption(a) {
        assert a == "--net=" + a[6..];
      } else {
        var init := args[..n];
        LastNetIsLastOption(init);
        assert forall i :: 0 <= i < n ==> args[i] == init[i];
        if LastNet(init).Some? {
          var i :| 0 <= i < n && init[i] == "--net=" + LastNet(init).value
                   && forall j :: i < j < n ==> !IsNetOption(init[j]);
          assert args[i] == "--net=" + LastNet(args).value;
        }
      }
    }
  }

  datatype GlobalOptions = GlobalOptions(rest: seq<string>, autoRemove: bool, withDev: bool, network: Option<string>)

  /** The loop at the top of docker-helper.py's `main`. */
  method ParseGlobalOptions(argv: seq<string>) returns (g: GlobalOptions)
    ensures g.rest == Positional(argv)
    ensures g.autoRemove <==> "--rm" in argv
    ensures g.withDev <==> "--with-dev" in argv
    ensures g.network == LastNet(argv)
  {
    var autoRemove := false;
    var withDev := false;
    var network: Option<string> := None;
    var rest: seq<string> := [];
    var n := 0;
    while n < |argv|
      invariant n <= |argv|
      invariant rest == Positional(argv[..n])
      invariant autoRemove <==> "--rm" in argv[..n]
      invariant withDev <==> "--with-dev" in argv[..n]
      invariant network == LastNet(argv[..n])
    {
      var a := argv[n];
      PrefixStep(argv, n, "--rm");
      PrefixStep(argv, n, "--with-dev");
      assert !IsNetOption("--with-dev") && !IsNetOption("--rm") by {
        assert "--with-dev"[2] != "--net="[2];
      }
      assert argv[..n + 1][..n] == argv[..n];
      if IsNetOption(a) {
        network := Some(a[6..]);
      } else if a == "--rm" {
        autoRemove := true;
      } else if a == "--with-dev" {
        withDev := true;
      } else {
        rest := rest + [a];
      }
      n := n + 1;
    }
    assert argv[..n] == argv;
    g := GlobalOptions(rest, autoRemove, withDev, network);
  }
}

=== FILE: checkpoint.dfy ===
/**
 Checkpointing a sandbox with `docker checkpoint create` and restoring it
 with `docker start --checkpoint` (docker-helper.py). Creating a checkpoint
 is guarded by two probes; either can veto the checkpoint, and a probe that
 fails to run is ignored.
 */
module Checkpoint {

  import opened Exec
  import opened Text
  import opened Argv

  const InfoArgv := ["docker", "info", "--format", "{{.ExperimentalBuild}}"]

  /** `s.strip().lower() in ("true", "1")`. */
  predicate SaysTrue(s: string) {
    var t := AsciiLower(Strip(s));
    t == "true" || t == "1"
  }

  /** The daemon probe vetoes: it ran, exited 0 and did not answer true. */
  predicate ExperimentalOff(info: Attempt) {
    info.Ran? && info.proc.code == 0 && !SaysTrue(info.proc.out)
  }

  /** The mount probe vetoes: it ran, exited 0 and printed a hugetlbfs mount line. */
  predicate HugetlbfsMounted(mounts: Attempt) {
    mounts.Ran? && mounts.proc.code == 0 && Strip(mounts.proc.out) != ""
  }

  /** The commands of a step guarded by two probes: the first probe always
      runs, the second runs unless the first vetoed, and the step runs only
      when neither vetoed. */
  function Guarded(firstVetoes: bool, secondVetoes: bool, first: Command, second: Command, step: Command): (t: seq<Command>)
    requires step != first && step != second && second != first
    ensures |t| >= 1 && t[0] == first
    ensures second in t <==> !firstVetoes
    ensures step in t <==> !firstVetoes && !secondVetoes
    ensures firstVetoes ==> t == [first]
    ensures !firstVetoes ==> |t| >= 2 && t[1] == second
    ensures !firstVetoes && secondVetoes ==> |t| == 2
    ensures step in t ==> |t| == 3 && t[2] == step
  {
    if firstVetoes then [first]
    else if secondVetoes then [first, second]
    else [first, second, step]
  }

  /** `create_checkpoint`: the two probes, then the checkpoint itself. */
  function CreateCheckpoint(container: string, checkpoint: string, leaveRunning: bool, dir: Option<string>,
                            info: Attempt, mounts: Attempt, create: Attempt): (r: Outcome)
    ensures |r.trace| >= 1 && r.trace[0] == Docker(InfoArgv)
    ensures InContainer(container, MountProbe) in r.trace <==> !ExperimentalOff(info)
    ensures Docker(CheckpointArgv(dir, leaveRunning, container, checkpoint)) in r.trace
            <==> !ExperimentalOff(info) && !HugetlbfsMounted(mounts)
    ensures r.ok <==> !ExperimentalOff(info) && !HugetlbfsMounted(mounts) && Succeeded(create)
    ensures ExperimentalOff(info) ==> r.trace == [Docker(InfoArgv)]
    ensures !ExperimentalOff(info) ==> |r.trace| >= 2 && r.trace[1] == InContainer(container, MountProbe)
    ensures !ExperimentalOff(info) && HugetlbfsMounted(mounts) ==> |r.trace| == 2
    ensures Docker(CheckpointArgv(dir, leaveRunning, container, checkpoint)) in r.trace ==>
              |r.trace| == 3 && r.trace[2] == Docker(CheckpointArgv(dir, leaveRunning, container, checkpoint))
  {
    var asked := Docker(InfoArgv);
    var made := Docker(CheckpointArgv(dir, leaveRunning, container, checkpoint));
    assert made != asked by {
      assert made.args[1] != InfoArgv[1];
    }
    var off, mounted := ExperimentalOff(info), HugetlbfsMounted(mounts);
    Outcome(!off && !mounted && Succeeded(create), Guarded(off, mounted, asked, InContainer(container, MountProbe), made))
  }

  /** The mount probe vetoes exactly when its output is not all whitespace. */
  lemma MountVetoIsNonBlankOutput(mounts: Attempt)
    ensures HugetlbfsMounted(mounts) <==> mounts.Ran? && mounts.proc.code == 0 && !IsBlank(mounts.proc.out)
  {
  }

  /** Python's `strip` of a word followed by one line break. */
  lemma StripLine(word: string)
    requires word != [] && !IsSpace(word[0]) && !IsSpace(word[|word| - 1])
    ensures Strip(word + "\n") == word
  {
    var s := word + "\n";
    assert LStrip(s, IsSpace) == s;
    assert s[..|s| - 1] == word;
    assert RStrip(s, IsSpace) == RStrip(word, IsSpace) == word;
  }

  /** A one-line answer of the daemon probe passes exactly when the word is
      "true" in any letter case, or "1". */
  lemma SaysTrueOfLine(word: string)
    requires word != [] && !IsSpace(word[0]) && !IsSpace(word[|word| - 1])
    ensures SaysTrue(word + "\n") <==> AsciiLower(word) == "true" || word == "1"
  {
    StripLine(word);
    LowerIsOne(word);
  }

  lemma LowerIsOne(word: string)
    ensures AsciiLower(word) == "1" <==> word == "1"
  {
    if AsciiLower(word) == "1" {
      assert LowerChar(word[0]) == '1';
      assert word == [word[0]];
    }
  }

  lemma LowerWord(word: string, lower: string)
    requires |word| == |lower|
    requires forall i :: 0 <= i < |word| ==> LowerChar(word[i]) == lower[i]
    ensures AsciiLower(word) == lower
  {
  }

  /** The scenario of a daemon without experimental features: the helper
      refuses and never asks docker to checkpoint. */
  lemma ExperimentalDisabledNeverCheckpoints(container: string, checkpoint: string, mounts: Attempt, create: Attempt)
    ensures var r := CreateCheckpoint(container, checkpoint, true, None, Ran(Proc(0, "false\n")), mounts, create);
            !r.ok && Docker(CheckpointArgv(None, true, container, checkpoint)) !in r.trace
  {
    assert ExperimentalOff(Ran(Proc(0, "false\n"))) by {
      SaysTrueOfLine("false");
      assert AsciiLower("false")[0] == 'f';
    }
  }

  /** With the daemon answering "true" and no hugetlbfs mount, the checkpoint
      is attempted and its outcome is the helper's answer. */
  lemma EnabledDaemonCheckpoints(container: string, checkpoint: string, create: Attempt)
    ensures var r := CreateCheckpoint(container, checkpoint, true, None, Ran(Proc(0, "true\n")), Ran(Proc(0, "")), create);
            Docker(CheckpointArgv(None, true, container, checkpoint)) in r.trace && (r.ok <==> Succeeded(create))
  {
    DaemonAnswersTrue();
    NoMountsPass();
    ProbesPassCheckpoints(container, checkpoint, true, None, Ran(Proc(0, "true\n")), Ran(Proc(0, "")), create);
  }

  lemma DaemonAnswersTrue()
    ensures !ExperimentalOff(Ran(Proc(0, "true\n")))
  {
    StripTrue();
    LowerTrue();
  }

  lemma StripTrue()
    ensures Strip("true\n") == "true"
  {
    var word := "true";
    assert word + "\n" == "true\n";
    StripLine(word);
  }

  lemma LowerTrue()
    ensures AsciiLower("true") == "true"
  {
    LowerWord("true", "true");
  }

  lemma NoMountsPass()
    ensures !HugetlbfsMounted(Ran(Proc(0, "")))
  {
    assert Strip("") == "";
  }

  /** When neither probe vetoes, the checkpoint is attempted and decides. */
  lemma ProbesPassCheckpoints(container: string, checkpoint: string, leaveRunning: bool, dir: Option<string>,
                              info: Attempt, mounts: Attempt, create: Attempt)
    requires !ExperimentalOff(info) && !HugetlbfsMounted(mounts)
    ensures var r := CreateCheckpoint(container, checkpoint, leaveRunning, dir, info, mounts, create);
            Docker(CheckpointArgv(dir, leaveRunning, container, checkpoint)) in r.trace && (r.ok <==> Succeeded(create))
  {
  }

  /** `restore_checkpoint`: stop (whatever the outcome), start from the
      checkpoint, and rewire the network only after a successful start. */
  function RestoreCheckpoint(container: string, checkpoint: string, start: Attempt): (r: Outcome)
    ensures |r.trace| >= 2
    ensures r.trace[0] == Docker(["docker", "stop", container])
    ensures r.trace[1] == Docker(["docker", "start", "--checkpoint", checkpoint, container])
    ensures r.ok <==> Succeeded(start)
    ensures WireNetwork(container) in r.trace <==> r.ok
    ensures |r.trace| == 2 + (if r.ok then 1 else 0)
    ensures r.ok ==> r.trace[2] == WireNetwork(container)
  {
    var t := [Docker(["docker", "stop", container]), Docker(["docker", "start", "--checkpoint", checkpoint, container])];
    if Succeeded(start) then Outcome(true, t + [WireNetwork(container)]) else Outcome(false, t)
  }
}

=== FILE: crosscheck.dfy ===
/**
 How the two scripts' sandbox searches compare. docker-helper.py reverses
 the `docker ps` listing and hides paused containers; docker-helper-qemu.py
 keeps the listing order and every container. For the same firmware file and
 the same listing, the scripts can therefore act on different sandboxes.
 */
module CrossCheck {

  import opened Exec
  import opened Text
  import opened Naming
  import opened Listing
  import HelperCli
  import QemuCli

  /** A listing line whose name is space-free and whose status is one line. */
  predicate WellFormedLine(name: string, status: string) {
    && name != []
    && (forall i :: 0 <= i < |name| ==> !IsSpace(name[i]))
    && (forall i :: 0 <= i < |status| ==> !IsLineBreak(status[i]))
  }

  /** The only line break of a two-line listing is the "\n" between them. */
  lemma TwoLineBreaks(l1: string, l2: string)
    requires forall i :: 0 <= i < |l1| ==> !IsLineBreak(l1[i])
    requires forall i :: 0 <= i < |l2| ==> !IsLineBreak(l2[i])
    ensures var out := l1 + "\n" + l2;
            forall i :: 0 <= i < |out| ==> IsLineBreak(out[i]) ==> out[i] == '\n'
  {
    var out := l1 + "\n" + l2;
    forall i | 0 <= i < |out| ensures IsLineBreak(out[i]) ==> out[i] == '\n' {
      if i < |l1| {
        assert out[i] == l1[i];
      } else if i > |l1| {
        assert out[i] == l2[i - |l1| - 1];
      }
    }
  }

  /** Two listing lines, neither blank nor containing a line break. */
  predicate PlainLines(l1: string, l2: string) {
    && l1 != [] && !IsSpace(l1[0]) && l2 != [] && !IsSpace(l2[0])
    && (forall i :: 0 <= i < |l1| ==> !IsLineBreak(l1[i]))
    && (forall i :: 0 <= i < |l2| ==> !IsLineBreak(l2[i]))
  }

  lemma SplitTwoLines(l1: string, l2: string)
    requires PlainLines(l1, l2)
    ensures SplitWhere(l1 + "\n" + l2, IsNewline) == [l1, l2]
  {
    assert Join([l1, l2], "\n") == l1 + "\n" + l2;
    assert NoNewline(l1) && NoNewline(l2);
    SplitJoin([l1, l2]);
  }

  lemma KeepTwoLines(l1: string, l2: string)
    requires PlainLines(l1, l2)
    ensures NonBlankLines([l1, l2]) == [l1, l2]
  {
    assert !IsBlank(l1) && !IsBlank(l2);
    assert [l1, l2][1..] == [l2];
  }

  /** Both scripts read a two-line listing as the two lines. */
  lemma HelperTwoLines(l1: string, l2: string)
    requires PlainLines(l1, l2)
    ensures HelperLines(l1 + "\n" + l2) == [l1, l2]
  {
    SplitTwoLines(l1, l2);
    KeepTwoLines(l1, l2);
  }

  lemma QemuTwoLines(l1: string, l2: string)
    requires PlainLines(l1, l2)
    ensures QemuLines(l1 + "\n" + l2) == [l1, l2]
  {
    SplitTwoLines(l1, l2);
    TwoLineBreaks(l1, l2);
    SplitAgree(l1 + "\n" + l2, IsNewline, IsLineBreak);
    KeepTwoLines(l1, l2);
  }

  lemma ListingLines(a: string, s1: string, b: string, s2: string)
    requires WellFormedLine(a, s1) && WellFormedLine(b, s2)
    ensures PlainLines(a + " " + s1, b + " " + s2)
  {
    NoLineBreakIn(a, s1);
    NoLineBreakIn(b, s2);
    assert (a + " " + s1)[0] == a[0] && (b + " " + s2)[0] == b[0];
  }

  lemma HelperNamesOfTwo(l1: string, l2: string, e1: Entry, e2: Entry)
    requires PlainLines(l1, l2)
    requires ParseLine(l1) == e1 && ParseLine(l2) == e2
    requires Listed(false, e1) && Listed(false, e2)
    ensures ContainerNames(false, Ran(Proc(0, l1 + "\n" + l2))) == [e2.name, e1.name]
  {
    HelperTwoLines(l1, l2);
    KeptTwo(l1, l2, e1, e2);
    NamesFromKept(l1 + "\n" + l2, e1.name, e2.name);
  }

  lemma KeptTwo(l1: string, l2: string, e1: Entry, e2: Entry)
    requires ParseLine(l1) == e1 && ParseLine(l2) == e2
    requires Listed(false, e1) && Listed(false, e2)
    ensures KeptNames(false, [l1, l2]) == [e1.name, e2.name]
  {
    assert [l1, l2][1..] == [l2];
  }

  lemma NamesFromKept(out: string, n1: string, n2: string)
    ensures KeptNames(false, HelperLines(out)) == [n1, n2] ==> ContainerNames(false, Ran(Proc(0, out))) == [n2, n1]
  {
    if KeptNames(false, HelperLines(out)) == [n1, n2] {
      ReverseOfTwo(ContainerNames(false, Ran(Proc(0, out))), n1, n2);
    }
  }

  lemma ReverseOfTwo(s: seq<string>, n1: string, n2: string)
    requires Reverse(s) == [n1, n2]
    ensures s == [n2, n1]
  {
    ReverseReverse(s);
  }

  lemma QemuNamesOfTwo(l1: string, l2: string, e1: Entry, e2: Entry)
    requires PlainLines(l1, l2)
    requires ParseLine(l1) == e1 && ParseLine(l2) == e2
    ensures Names(ContainerEntries(Proc(0, l1 + "\n" + l2))) == [e1.name, e2.name]
  {
    QemuTwoLines(l1, l2);
    ParseTwo(l1, l2, e1, e2);
    NamesOfTwo(e1, e2);
  }

  lemma ParseTwo(l1: string, l2: string, e1: Entry, e2: Entry)
    requires ParseLine(l1) == e1 && ParseLine(l2) == e2
    ensures ParseLines([l1, l2]) == [e1, e2]
  {
    assert [l1, l2][1..] == [l2];
  }

  lemma NamesOfTwo(e1: Entry, e2: Entry)
    ensures Names([e1, e2]) == [e1.name, e2.name]
  {
    assert [e1, e2][1..] == [e2];
  }

  /** docker-helper.py lists the two names last line first. */
  lemma HelperListsLastFirst(a: string, s1: string, b: string, s2: string)
    requires WellFormedLine(a, s1) && WellFormedLine(b, s2)
    requires !Contains(s1, "Paused") && !Contains(s2, "Paused")
    ensures ContainerNames(false, Ran(Proc(0, (a + " " + s1) + "\n" + (b + " " + s2)))) == [b, a]
  {
    ListingLines(a, s1, b, s2);
    EntryLine(a, s1);
    EntryLine(b, s2);
    HelperNamesOfTwo(a + " " + s1, b + " " + s2, Entry(a, s1), Entry(b, s2));
  }

  /** docker-helper-qemu.py lists the two names in order. */
  lemma QemuListsInOrder(a: string, s1: string, b: string, s2: string)
    requires WellFormedLine(a, s1) && WellFormedLine(b, s2)
    ensures Names(ContainerEntries(Proc(0, (a + " " + s1) + "\n" + (b + " " + s2)))) == [a, b]
  {
    ListingLines(a, s1, b, s2);
    EntryLine(a, s1);
    EntryLine(b, s2);
    QemuNamesOfTwo(a + " " + s1, b + " " + s2, Entry(a, s1), Entry(b, s2));
  }

  /** With two sandboxes of one firmware file running, docker-helper.py acts
      on the one listed last and docker-helper-qemu.py on the one listed
      first. */
  lemma TwoSandboxesDiverge(a: string, s1: string, b: string, s2: string, firmware: string, ps: Attempt)
    requires WellFormedLine(a, s1) && WellFormedLine(b, s2)
    requires !Contains(s1, "Paused") && !Contains(s2, "Paused")
    requires Matches(a, Sanitize(firmware)) && Matches(b, Sanitize(firmware))
    ensures var out := (a + " " + s1) + "\n" + (b + " " + s2);
            && HelperCli.CheckExisting(firmware, Ran(Proc(0, out)), ps) == Some(Located(b, Running))
            && QemuCli.FindContainer(firmware, Proc(0, out), Proc(0, out)) == Some(Located(a, Running))
  {
    HelperListsLastFirst(a, s1, b, s2);
    QemuListsInOrder(a, s1, b, s2);
  }
}

=== FILE: exec.dfy ===
/**
 The boundary between the orchestration scripts and the programs they run.

 Every external program (docker, bash inside a container, socat) is replaced by
 an oracle value: the exit status and captured standard output the call would
 have produced. What a flow does to the outside world is recorded as a trace
 of `Command`s, in the order the scripts issue them.
 */
module Exec {

  datatype Option<T> = None | Some(value: T)

  /** A subprocess that ran to completion: exit status and captured stdout. */
  datatype Proc = Proc(code: int, out: string)

  /** A subprocess call wrapped in `try/except`: it either completed, or
      starting it raised (for example, the docker binary is missing). */
  datatype Attempt = Ran(proc: Proc) | Raised

  predicate Succeeded(a: Attempt) {
    a.Ran? && a.proc.code == 0
  }

  /** A shell snippet run inside a container through `docker exec <c> bash -lc`
      (`sh -lc` for the mount probe). Each variant carries the values the
      script text interpolates; the text itself is not modelled. */
  datatype Script =
    | ScanInstances(stem: string)   // print the scratch directory whose `name` file equals stem
    | MountProbe                    // grep -w hugetlbfs /proc/mounts || true
    | EnsureQemuImg(iid: string)    // install qemu-utils unless image.qcow2 or qemu-img exists
    | ConvertToQcow2(iid: string)   // image.raw -> image.qcow2 unless it exists, then chmod
    | PatchRunScript(iid: string)   // sed the drive arguments of run.sh to use image.qcow2
    | KillQemu                      // pkill -f qemu-system || true
    | Relaunch(iid: string)         // nohup ./scratch/<iid>/run.sh > qemu.relaunch.log &
    | SocketProbe(iid: string)      // [ -S /tmp/qemu.<iid> ] && echo ok || true
    | TailRelaunchLog(iid: string)  // tail -n 80 of qemu.relaunch.log
    | Unmount(iid: string)          // scripts/umount.sh <iid> || true
    | RestoreCleanImage(iid: string)// create image.clean once, copy it over image.raw
    | RestartRunScript(iid: string) // nohup scratch/<iid>/run.sh > reset.log &

  datatype Command =
    | Docker(args: seq<string>)                               // a docker CLI argv
    | InContainer(container: string, script: Script)
    | MonitorBatch(container: string, iid: string, payload: string)  // socat to /tmp/qemu.<iid>, payload on stdin
    | WireNetwork(container: string)                          // setup_network_access

  /** What a step reports to its caller, and the commands it issued. */
  datatype Outcome = Outcome(ok: bool, trace: seq<Command>)

  /** How a command-line run ends: its exit status and the commands it issued.
      An uncaught Python exception ends the process with status 1. */
  datatype Exit = Exit(status: int, trace: seq<Command>)
}

=== FILE: helpercli.dfy ===
/**
 The checkpoint and reset commands of docker-helper.py: `-ckc` checkpoints
 the sandbox of a firmware file, `-ckr` restores it from a checkpoint, and
 `-reset` restarts the emulated device, optionally from a clean disk image.
 `argv` is the command line after the global options are filtered out,
 `argv[0]` being the program.
 */
module HelperCli {

  import opened Exec
  import opened Text
  import opened Paths
  import opened Naming
  import opened Listing
  import opened Instances
  import opened Argv
  import opened Checkpoint

  /** `check_existing_container`: the same search as docker-helper-qemu.py,
      over listings that leave paused containers out and are reversed. */
  function CheckExisting(firmware: string, ps: Attempt, psAll: Attempt): (r: Option<Located>)
    ensures r.Some? ==> Matches(r.value.container, Sanitize(firmware))
    ensures r.Some? && r.value.state == Running <==> AnyMatch(ContainerNames(false, ps), Sanitize(firmware))
    ensures r.None? <==> !AnyMatch(ContainerNames(false, ps), Sanitize(firmware))
                         && !AnyMatch(ContainerNames(false, psAll), Sanitize(firmware))
  {
    Locate(firmware, ContainerNames(false, ps), ContainerNames(false, psAll))
  }

  /** `start_stopped_container`. */
  function StartStopped(container: string, start: Attempt): (r: Outcome)
    ensures r.trace == [Docker(["docker", "start", container])]
    ensures r.ok <==> Succeeded(start)
  {
    Outcome(Succeeded(start), [Docker(["docker", "start", container])])
  }

  /** The call results the commands consume. Results that are only logged
      (stop before restore, kill, unmount, clean-image copy, network setup)
      are not listed. */
  datatype Host = Host(ps: Attempt, psAll: Attempt, start: Attempt,
                       info: Attempt, mounts: Attempt, create: Attempt,
                       restore: Attempt, scan: Proc, relaunch: Proc)

  /** The sandbox a command works on, and the commands spent finding it. */
  datatype Sandbox = Sandbox(container: Option<string>, trace: seq<Command>)

  /** Locate the sandbox of `firmware` and, when `wake` is set, start it if
      it is stopped. */
  function FindSandbox(firmware: string, wake: bool, h: Host): (r: Sandbox)
    ensures var loc := CheckExisting(firmware, h.ps, h.psAll);
            r.container.Some? <==> loc.Some? && (!wake || loc.value.state == Running || Succeeded(h.start))
    ensures r.container.Some? ==> r.container.value == CheckExisting(firmware, h.ps, h.psAll).value.container
    ensures r.container.Some? ==> Matches(r.container.value, Sanitize(firmware))
    ensures var loc := CheckExisting(firmware, h.ps, h.psAll);
            r.trace == LocateTrace(firmware, ContainerNames(false, h.ps))
                       + if wake && loc.Some? && loc.value.state == Stopped
                         then [Docker(["docker", "start", loc.value.container])] else []
  {
    var listed := LocateTrace(firmware, ContainerNames(false, h.ps));
    match CheckExisting(firmware, h.ps, h.psAll)
    case None => Sandbox(None, listed)
    case Some(loc) =>
      if wake && loc.state == Stopped then
        var s := StartStopped(loc.container, h.start);
        Sandbox(if s.ok then Some(loc.container) else None, listed + s.trace)
      else Sandbox(Some(loc.container), listed)
  }

  /** The listing the `docker_helper` constructor requests before any command
      runs. Its result only sets a counter and a failure is caught, so it
      needs no oracle value. */
  const SyncListing := Docker(PsArgv(false))

  /** `sys.argv[3] if len(sys.argv) >= 4 else 'warm1'`. */
  function CheckpointName(argv: seq<string>): string {
    if |argv| >= 4 then argv[3] else "warm1"
  }

  /** `-ckc <firmware> [name]`. */
  function CreateCommand(argv: seq<string>, h: Host): (r: Exit)
    ensures r.status == 0 || r.status == 1
    ensures |r.trace| >= 1 && r.trace[0] == SyncListing
    ensures |argv| < 3 ==> r == Exit(1, [SyncListing])
    ensures |argv| >= 3 ==>
              var sb := FindSandbox(Basename(argv[2]), true, h);
              && (r.status == 0 <==>
                    sb.container.Some?
                    && CreateCheckpoint(sb.container.value, CheckpointName(argv), true, None, h.info, h.mounts, h.create).ok)
              && (r.status == 0 ==> Docker(CheckpointArgv(None, true, sb.container.value, CheckpointName(argv))) in r.trace)
    ensures |argv| >= 3 ==>
              var sb := FindSandbox(Basename(argv[2]), true, h);
              sb.container.None? ==> r.trace == [SyncListing] + sb.trace
    ensures |argv| >= 3 ==>
              var sb := FindSandbox(Basename(argv[2]), true, h);
              sb.container.Some? ==>
                r.trace == [SyncListing] + sb.trace
                           + CreateCheckpoint(sb.container.value, CheckpointName(argv), true, None, h.info, h.mounts, h.create).trace
  {
    if |argv| < 3 then Exit(1, [SyncListing])
    else
      var sb := FindSandbox(Basename(argv[2]), true, h);
      match sb.container
      case None => Exit(1, [SyncListing] + sb.trace)
      case Some(c) =>
        var made := CreateCheckpoint(c, CheckpointName(argv), true, None, h.info, h.mounts, h.create);
        Exit(if made.ok then 0 else 1, [SyncListing] + sb.trace + made.trace)
  }

  /** `-ckr <firmware> [name]`: no attempt is made to start the sandbox first. */
  function RestoreCommand(argv: seq<string>, h: Host): (r: Exit)
    ensures r.status == 0 || r.status == 1
    ensures |r.trace| >= 1 && r.trace[0] == SyncListing
    ensures |argv| < 3 ==> r == Exit(1, [SyncListing])
    ensures |argv| >= 3 ==>
              var loc := CheckExisting(Basename(argv[2]), h.ps, h.psAll);
              && (r.status == 0 <==> loc.Some? && Succeeded(h.restore))
              && (loc.Some? ==> Docker(["docker", "start", "--checkpoint", CheckpointName(argv), loc.value.container]) in r.trace)
    ensures |argv| >= 3 ==>
              var loc := CheckExisting(Basename(argv[2]), h.ps, h.psAll);
              var listed := LocateTrace(Basename(argv[2]), ContainerNames(false, h.ps));
              r.trace == [SyncListing] + listed
                         + if loc.Some? then RestoreCheckpoint(loc.value.container, CheckpointName(argv), h.restore).trace else []
  {
    if |argv| < 3 then Exit(1, [SyncListing])
    else
      var sb := FindSandbox(Basename(argv[2]), false, h);
      match sb.container
      case None => Exit(1, [SyncListing] + sb.trace)
      case Some(c) =>
        var back := RestoreCheckpoint(c, CheckpointName(argv), h.restore);
        assert back.trace[1] in back.trace;
        Exit(if back.ok then 0 else 1, [SyncListing] + sb.trace + back.trace)
  }

  const CleanWords := {"clean", "true", "1", "yes", "y"}

  /** The optional fourth argument of `-reset`, lower-cased, asks for the
      clean image when it is one of the accepted words. */
  predicate UseClean(argv: seq<string>) {
    |argv| >= 4 && AsciiLower(argv[3]) in CleanWords
  }

  /** Lower-casing is idempotent, so the clean flag ignores letter case. */
  lemma UseCleanIgnoresCase(argv: seq<string>)
    requires |argv| >= 4
    ensures UseClean(argv[3 := AsciiLower(argv[3])]) == UseClean(argv)
  {
    LowerTwice(argv[3]);
  }

  lemma LowerTwice(s: string)
    ensures AsciiLower(AsciiLower(s)) == AsciiLower(s)
  {
    var l := AsciiLower(s);
    forall i | 0 <= i < |s| ensures AsciiLower(l)[i] == l[i] {
    }
  }

  /** The device restart of `-reset` once the instance is known. */
  function RestartDevice(container: string, iid: string, clean: bool, relaunch: Proc): (r: Exit)
    ensures |r.trace| >= 3
    ensures r.trace[..2] == [InContainer(container, KillQemu), InContainer(container, Unmount(iid))]
    ensures InContainer(container, RestoreCleanImage(iid)) in r.trace <==> clean
    ensures clean ==> r.trace[2] == InContainer(container, RestoreCleanImage(iid))
    ensures r.status == 0 <==> relaunch.code == 0
    ensures r.status == 1 || r.status == 0
    ensures |r.trace| == 3 + (if clean then 1 else 0) + (if r.status == 0 then 1 else 0)
    ensures r.status == 0 ==> r.trace[|r.trace| - 2..] == [InContainer(container, RestartRunScript(iid)), WireNetwork(container)]
    ensures r.status != 0 ==> r.trace[|r.trace| - 1] == InContainer(container, RestartRunScript(iid))
                              && WireNetwork(container) !in r.trace
  {
    var stop := [InContainer(container, KillQemu), InContainer(container, Unmount(iid))];
    var restore := if clean then [InContainer(container, RestoreCleanImage(iid))] else [];
    var run := stop + restore + [InContainer(container, RestartRunScript(iid))];
    if relaunch.code != 0 then Exit(1, run) else Exit(0, run + [WireNetwork(container)])
  }

  /** `-reset <firmware> [clean]`. */
  function ResetCommand(argv: seq<string>, h: Host): (r: Exit)
    ensures r.status == 0 || r.status == 1
    ensures |r.trace| >= 1 && r.trace[0] == SyncListing
    ensures |argv| < 3 ==> r == Exit(1, [SyncListing])
    ensures |argv| >= 3 ==>
              var sb := FindSandbox(Basename(argv[2]), true, h);
              r.status == 0 <==> sb.container.Some? && InstanceId(h.scan).Instance? && h.relaunch.code == 0
    ensures r.status == 0 ==>
              var sb := FindSandbox(Basename(argv[2]), true, h);
              r.trace == [SyncListing] + sb.trace + [InContainer(sb.container.value, ScanInstances(Stem(Basename(argv[2]))))]
                         + RestartDevice(sb.container.value, InstanceId(h.scan).iid, UseClean(argv), h.relaunch).trace
    ensures |argv| >= 3 ==>
              var sb := FindSandbox(Basename(argv[2]), true, h);
              sb.container.None? ==> r.trace == [SyncListing] + sb.trace
    ensures |argv| >= 3 ==>
              var sb := FindSandbox(Basename(argv[2]), true, h);
              sb.container.Some? && !InstanceId(h.scan).Instance? ==>
                r.trace == [SyncListing] + sb.trace + [InContainer(sb.container.value, ScanInstances(Stem(Basename(argv[2]))))]
    ensures |argv| >= 3 ==>
              var sb := FindSandbox(Basename(argv[2]), true, h);
              sb.container.Some? && InstanceId(h.scan).Instance? ==>
                r.trace == [SyncListing] + sb.trace + [InContainer(sb.container.value, ScanInstances(Stem(Basename(argv[2]))))]
                           + RestartDevice(sb.container.value, InstanceId(h.scan).iid, UseClean(argv), h.relaunch).trace
  {
    if |argv| < 3 then Exit(1, [SyncListing])
    else
      var firmware := Basename(argv[2]);
      var sb := FindSandbox(firmware, true, h);
      match sb.container
      case None => Exit(1, [SyncListing] + sb.trace)
      case Some(c) =>
        var scanned := [SyncListing] + sb.trace + [InContainer(c, ScanInstances(Stem(firmware)))];
        var id := InstanceId(h.scan);
        if !id.Instance? then Exit(1, scanned)
        else
          var d := RestartDevice(c, id.iid, UseClean(argv), h.relaunch);
          Exit(d.status, scanned + d.trace)
  }
}

=== FILE: instances.dfy ===
/**
 Resolving a sandbox to the emulation instance of a firmware: a scan inside
 the container prints the name of the first scratch directory whose `name`
 file holds the firmware's stem, and the scripts take the first line of what
 it printed.
 */
module Instances {

  import opened Exec
  import opened Text

  /** What the scripts make of the scan: no instance, an instance identifier,
      or an IndexError from `''.splitlines()[0]` when the scan exited 0 but
      printed only whitespace. */
  datatype Lookup = NoInstance | Instance(iid: string) | IndexError

  /** `s.splitlines()[0]` for a non-empty `s`. */
  function FirstLine(s: string): (r: string)
    requires s != [] && !IsLineBreak(s[0])
    ensures r != [] && r[0] == s[0]
    ensures StartsWith(s, r)
    ensures forall i :: 0 <= i < |r| ==> !IsLineBreak(r[i])
    ensures |r| < |s| ==> IsLineBreak(s[|r|])
  {
    s[..FirstWhere(s, IsLineBreak)]
  }

  lemma LineBreakIsSpace(c: char)
    ensures IsLineBreak(c) ==> IsSpace(c)
  {
  }

  /** `p.stdout.strip().splitlines()[0]` after a zero exit, as `find_iid` and the
      reset command do. */
  function InstanceId(scan: Proc): (r: Lookup)
    ensures r.NoInstance? <==> scan.code != 0
    ensures r.IndexError? <==> scan.code == 0 && IsBlank(scan.out)
    ensures r.Instance? ==>
              && r.iid != ""
              && !IsSpace(r.iid[0])
              && (forall i :: 0 <= i < |r.iid| ==> !IsLineBreak(r.iid[i]))
              && StartsWith(Strip(scan.out), r.iid)
              && (|r.iid| < |Strip(scan.out)| ==> IsLineBreak(Strip(scan.out)[|r.iid|]))
  {
    if scan.code != 0 then NoInstance
    else
      var s := Strip(scan.out);
      if s == [] then IndexError
      else
        LineBreakIsSpace(s[0]);
        var line := FirstLine(s);
        assert !IsSpace(line[0]);
        Instance(line)
  }
}

=== FILE: listing.dfy ===
/**
 Parsing the output of `docker ps --format "{{.Names}} {{.Status}}"`.

 docker-helper.py splits the output at "\n", drops paused containers unless
 asked not to, drops empty names and returns the names in reverse order.
 docker-helper-qemu.py splits with `splitlines()`, keeps every entry with its
 status and keeps the input order.
 */
module Listing {

  import opened Exec
  import opened Text

  datatype Entry = Entry(name: string, status: string)

  predicate IsSpaceBar(c: char) {
    c == ' '
  }

  /** One listing line: `line.split(' ', 1)`, or, when the line has no space,
      the stripped line as the name and an empty status. */
  function ParseLine(line: string): (e: Entry)
    ensures (exists i :: 0 <= i < |line| && line[i] == ' ') ==>
              line == e.name + " " + e.status && forall i :: 0 <= i < |e.name| ==> e.name[i] != ' '
    ensures (forall i :: 0 <= i < |line| ==> line[i] != ' ') ==> e == Entry(Strip(line), "")
  {
    var i := FirstWhere(line, IsSpaceBar);
    if i < |line| then
      assert line == line[..i] + " " + line[i + 1..];
      Entry(line[..i], line[i + 1..])
    else Entry(Strip(line), "")
  }

  /** The lines `l` with `l.strip()` non-empty, in order. */
  function NonBlankLines(lines: seq<string>): (r: seq<string>)
    ensures |r| <= |lines|
    ensures forall k :: 0 <= k < |r| ==> !IsBlank(r[k]) && r[k] in lines
    ensures forall j :: 0 <= j < |lines| && !IsBlank(lines[j]) ==> lines[j] in r
  {
    if lines == [] then []
    else if IsBlank(lines[0]) then NonBlankLines(lines[1..])
    else [lines[0]] + NonBlankLines(lines[1..])
  }

  /** The filter distributes over concatenation: it keeps the order of the
      lines it keeps, and keeps a repeated line as often as it occurs. */
  lemma {:induction false} NonBlankLinesAppend(a: seq<string>, b: seq<string>)
    ensures NonBlankLines(a + b) == NonBlankLines(a) + NonBlankLines(b)
  {
    if a == [] {
      assert a + b == b;
    } else {
      assert (a + b)[0] == a[0] && (a + b)[1..] == a[1..] + b;
      NonBlankLinesAppend(a[1..], b);
    }
  }

  /** On one line the filter keeps it exactly when it is not blank. */
  lemma NonBlankLinesOne(line: string)
    ensures NonBlankLines([line]) == if IsBlank(line) then [] else [line]
  {
    assert [line][1..] == [];
  }

  // ---- docker-helper.py: get_container_list ----

  /** Whether docker-helper.py keeps an entry: a non-empty name, and no
      "Paused" in the status unless paused containers are wanted. */
  predicate Listed(withPause: bool, e: Entry) {
    e.name != "" && (withPause || !Contains(e.status, "Paused"))
  }

  /** Some line of `lines` is listed under the name `x`. */
  ghost predicate ListedName(withPause: bool, lines: seq<string>, x: string) {
    exists j :: 0 <= j < |lines| && Listed(withPause, ParseLine(lines[j])) && ParseLine(lines[j]).name == x
  }

  lemma ListedNameShift(withPause: bool, lines: seq<string>)
    requires lines != []
    ensures forall x :: ListedName(withPause, lines[1..], x) ==> ListedName(withPause, lines, x)
  {
    forall x | ListedName(withPause, lines[1..], x) ensures ListedName(withPause, lines, x) {
      var j :| 0 <= j < |lines[1..]| && Listed(withPause, ParseLine(lines[1..][j])) && ParseLine(lines[1..][j]).name == x;
      assert lines[j + 1] == lines[1..][j];
    }
  }

  /** The names of the listed entries, in input order. */
  function KeptNames(withPause: bool, lines: seq<string>): (r: seq<string>)
    ensures |r| <= |lines|
    ensures forall k :: 0 <= k < |r| ==> r[k] != ""
  {
    if lines == [] then []
    else
      var e := ParseLine(lines[0]);
      var rest := KeptNames(withPause, lines[1..]);
      if Listed(withPause, e) then [e.name] + rest else rest
  }

  /** Keeping names distributes over concatenation, so the kept names follow
      the listing order, repeats included. */
  lemma {:induction false} KeptNamesAppend(withPause: bool, a: seq<string>, b: seq<string>)
    ensures KeptNames(withPause, a + b) == KeptNames(withPause, a) + KeptNames(withPause, b)
  {
    if a == [] {
      assert a + b == b;
    } else {
      assert (a + b)[0] == a[0] && (a + b)[1..] == a[1..] + b;
      KeptNamesAppend(withPause, a[1..], b);
    }
  }

  /** One line gives its name exactly when the line is listed. */
  lemma KeptNamesOne(withPause: bool, line: string)
    ensures KeptNames(withPause, [line]) == if Listed(withPause, ParseLine(line)) then [ParseLine(line).name] else []
  {
    assert [line][1..] == [];
  }

  /** Every kept name is the name of a listed line. */
  lemma {:induction false} KeptNamesSound(withPause: bool, lines: seq<string>)
    ensures forall x :: x in KeptNames(withPause, lines) ==> ListedName(withPause, lines, x)
  {
    if lines != [] {
      KeptNamesSound(withPause, lines[1..]);
      ListedNameShift(withPause, lines);
      assert Listed(withPause, ParseLine(lines[0])) ==> ListedName(withPause, lines, ParseLine(lines[0]).name);
    }
  }

  /** Every listed line's name is kept. */
  lemma {:induction false} KeptNamesComplete(withPause: bool, lines: seq<string>)
    ensures forall j :: 0 <= j < |lines| && Listed(withPause, ParseLine(lines[j])) ==> ParseLine(lines[j]).name in KeptNames(withPause, lines)
  {
    if lines != [] {
      KeptNamesComplete(withPause, lines[1..]);
      assert forall j :: 1 <= j < |lines| ==> lines[j] == lines[1..][j - 1];
    }
  }

  /** The non-blank lines of docker-helper.py's `stdout.split('\n')`. */
  function HelperLines(out: string): seq<string> {
    NonBlankLines(SplitWhere(out, IsNewline))
  }

  /** docker-helper.py's `get_container_list`: nothing when `docker ps` fails
      or raises, otherwise the kept names in reverse listing order. */
  function ContainerNames(withPause: bool, a: Attempt): (r: seq<string>)
    ensures !Succeeded(a) ==> r == []
    ensures Succeeded(a) ==> Reverse(r) == KeptNames(withPause, HelperLines(a.proc.out))
    ensures forall k :: 0 <= k < |r| ==> r[k] != ""
  {
    match a
    case Raised => []
    case Ran(p) =>
      if p.code != 0 then []
      else
        var kept := KeptNames(withPause, HelperLines(p.out));
        ReverseReverse(kept);
        var r := Reverse(kept);
        assert forall k :: 0 <= k < |r| ==> r[k] == kept[|kept| - 1 - k];
        r
  }

  lemma ReverseReverse<T>(s: seq<T>)
    ensures Reverse(Reverse(s)) == s
  {
  }

  // ---- docker-helper-qemu.py: get_container_list ----

  /** The non-blank lines of docker-helper-qemu.py's `stdout.splitlines()`. */
  function QemuLines(out: string): seq<string> {
    NonBlankLines(SplitWhere(out, IsLineBreak))
  }

  function ParseLines(lines: seq<string>): (r: seq<Entry>)
    ensures |r| == |lines|
    ensures forall k :: 0 <= k < |r| ==> r[k] == ParseLine(lines[k])
  {
    if lines == [] then [] else [ParseLine(lines[0])] + ParseLines(lines[1..])
  }

  /** docker-helper-qemu.py's `get_container_list`: every non-blank line as a
      (name, status) pair, in input order, nothing when `docker ps` fails. */
  function ContainerEntries(p: Proc): (r: seq<Entry>)
    ensures p.code != 0 ==> r == []
    ensures p.code == 0 ==> |r| == |QemuLines(p.out)|
    ensures p.code == 0 ==> forall k :: 0 <= k < |r| ==> r[k] == ParseLine(QemuLines(p.out)[k])
  {
    if p.code != 0 then [] else ParseLines(QemuLines(p.out))
  }

  function Names(entries: seq<Entry>): (r: seq<string>)
    ensures |r| == |entries|
    ensures forall k :: 0 <= k < |r| ==> r[k] == entries[k].name
  {
    if entries == [] then [] else [entries[0].name] + Names(entries[1..])
  }

  function NonEmpty(names: seq<string>): seq<string> {
    if names == [] then []
    else if names[0] == "" then NonEmpty(names[1..])
    else [names[0]] + NonEmpty(names[1..])
  }

  // ---- the two parsers compared ----

  /** Splitting at two separator predicates that agree on every character of
      the text gives the same pieces. */
  lemma {:induction false} SplitAgree(s: string, p: char -> bool, q: char -> bool)
    requires forall i :: 0 <= i < |s| ==> p(s[i]) == q(s[i])
    ensures SplitWhere(s, p) == SplitWhere(s, q)
    decreases |s|
  {
    var i := FirstWhere(s, p);
    FirstWhereAgree(s, p, q);
    if i < |s| {
      SplitAgree(s[i + 1..], p, q);
    }
  }

  lemma {:induction false} FirstWhereAgree(s: string, p: char -> bool, q: char -> bool)
    requires forall i :: 0 <= i < |s| ==> p(s[i]) == q(s[i])
    ensures FirstWhere(s, p) == FirstWhere(s, q)
  {
    if s != [] && !p(s[0]) {
      FirstWhereAgree(s[1..], p, q);
    }
  }

  lemma {:induction false} KeptAllAreNonEmptyNames(lines: seq<string>)
    ensures KeptNames(true, lines) == NonEmpty(Names(ParseLines(lines)))
  {
    if lines != [] {
      KeptAllAreNonEmptyNames(lines[1..]);
      assert ParseLines(lines)[1..] == ParseLines(lines[1..]);
      assert Names(ParseLines(lines))[1..] == Names(ParseLines(lines[1..]));
    }
  }

  /** When "\n" is the only line break in the listing, docker-helper.py asked
      for paused containers too lists exactly the non-empty names
      docker-helper-qemu.py sees, in the opposite order. */
  lemma HelperListReversesQemuList(out: string)
    requires forall i :: 0 <= i < |out| ==> IsLineBreak(out[i]) ==> out[i] == '\n'
    ensures Reverse(ContainerNames(true, Ran(Proc(0, out))))
            == NonEmpty(Names(ContainerEntries(Proc(0, out))))
  {
    SplitAgree(out, IsNewline, IsLineBreak);
    KeptAllAreNonEmptyNames(HelperLines(out));
  }

  lemma {:induction false} NoSeparatorOneLine(s: string, sep: char -> bool)
    requires forall i :: 0 <= i < |s| ==> !sep(s[i])
    ensures SplitWhere(s, sep) == [s]
  {
    assert FirstWhere(s, sep) == |s|;
  }

  lemma EntryLine(name: string, status: string)
    requires forall i :: 0 <= i < |name| ==> name[i] != ' '
    ensures ParseLine(name + " " + status) == Entry(name, status)
  {
    var line := name + " " + status;
    assert line[|name|] == ' ';
    assert FirstWhere(line, IsSpaceBar) == |name|;
    assert line[..|name|] == name;
    assert line[|name| + 1..] == status;
  }

  lemma OneLineListing(line: string)
    requires !IsBlank(line)
    requires forall i :: 0 <= i < |line| ==> !IsLineBreak(line[i])
    ensures HelperLines(line) == [line] && QemuLines(line) == [line]
  {
    NoSeparatorOneLine(line, IsNewline);
    NoSeparatorOneLine(line, IsLineBreak);
    assert [line][1..] == [];
  }

  lemma NoLineBreakIn(name: string, status: string)
    requires forall i :: 0 <= i < |name| ==> !IsSpace(name[i])
    requires forall i :: 0 <= i < |status| ==> !IsLineBreak(status[i])
    ensures forall i :: 0 <= i < |name + " " + status| ==> !IsLineBreak((name + " " + status)[i])
  {
    var line := name + " " + status;
    forall i | 0 <= i < |line| ensures !IsLineBreak(line[i]) {
      if i < |name| { assert line[i] == name[i]; }
      else if i > |name| { assert line[i] == status[i - |name| - 1]; }
    }
  }

  /** A paused container never appears in docker-helper.py's default listing,
      while docker-helper-qemu.py lists it like any other. */
  lemma PausedHiddenOnlyByHelper(name: string, status: string)
    requires name != "" && Contains(status, "Paused")
    requires forall i :: 0 <= i < |name| ==> !IsSpace(name[i])
    requires forall i :: 0 <= i < |status| ==> !IsLineBreak(status[i])
    ensures ContainerNames(false, Ran(Proc(0, name + " " + status))) == []
    ensures ContainerEntries(Proc(0, name + " " + status)) == [Entry(name, status)]
  {
    var line := name + " " + status;
    EntryLine(name, status);
    NoLineBreakIn(name, status);
    assert !IsSpace(line[0]);
    OneLineListing(line);
    assert KeptNames(false, [line]) == [];
    assert ParseLines([line]) == [Entry(name, status)];
  }
}

=== FILE: monitor.dfy ===
/**
 The QEMU human monitor (HMP) batches of docker-helper-qemu.py. A batch is
 written to the monitor's UNIX socket through `docker exec -i <c> socat`,
 one monitor command per line; the monitor runs the lines in order.
 */
module Monitor {

  import opened Exec
  import opened Text

  /** What `hmp` is given: a list of commands, or one text. */
  datatype Request = Commands(lines: seq<string>) | Text(text: string)

  /** `hmp`'s payload: the commands joined by "\n" plus a final "\n", or the
      text with its trailing newlines replaced by exactly one. */
  function Payload(q: Request): (r: string)
    ensures |r| >= 1 && r[|r| - 1] == '\n'
    ensures q.Commands? ==> r[..|r| - 1] == Join(q.lines, "\n")
    ensures q.Text? ==> StartsWith(q.text, r[..|r| - 1]) && All(q.text[|r| - 1..], IsNewline)
                        && (|r| == 1 || r[|r| - 2] != '\n')
  {
    match q
    case Commands(lines) =>
      var body := Join(lines, "\n");
      assert (body + "\n")[..|body|] == body;
      body + "\n"
    case Text(text) =>
      var body := RStrip(text, IsNewline);
      assert (body + "\n")[..|body|] == body;
      body + "\n"
  }

  /** The command lines the monitor reads from a newline-terminated payload. */
  function MonitorLines(payload: string): seq<string>
    requires |payload| >= 1
  {
    SplitWhere(payload[..|payload| - 1], IsNewline)
  }

  /** A list of newline-free commands reaches the monitor as exactly those
      commands, in order. */
  lemma CommandsDelivered(lines: seq<string>)
    requires |lines| >= 1
    requires forall k :: 0 <= k < |lines| ==> NoNewline(lines[k])
    ensures MonitorLines(Payload(Commands(lines))) == lines
  {
    SplitJoin(lines);
  }

  /** Sending a text payload again as a text changes nothing. */
  lemma TextPayloadIdempotent(text: string)
    ensures Payload(Text(Payload(Text(text)))) == Payload(Text(text))
  {
    var p := Payload(Text(text));
    var body := p[..|p| - 1];
    assert p == body + "\n";
    var r := RStrip(p, IsNewline);
    assert p[|p| - 1] == '\n';
    assert |r| <= |body|;
    if |body| > 0 {
      assert p[|body| - 1] == body[|body| - 1];
      assert !IsNewline(p[|body| - 1]);
      assert forall j :: |r| <= j < |p| ==> IsNewline(p[j]) by {
        forall j | |r| <= j < |p| ensures IsNewline(p[j]) {
          assert p[|r|..][j - |r|] == p[j];
        }
      }
    }
    assert r == body;
  }

  /** `qmsave`'s batch: pause, save, resume, then list the snapshots. */
  function SaveBatch(name: string): (r: seq<string>)
    ensures PausedAround(r, "savevm " + name)
    ensures r[|r| - 1] == "info snapshots"
  {
    ["stop", "savevm " + name, "cont", "info snapshots"]
  }

  /** `qmload`'s batch: pause, load, resume. */
  function LoadBatch(name: string): (r: seq<string>)
    ensures PausedAround(r, "loadvm " + name)
    ensures |r| == 3
  {
    ["stop", "loadvm " + name, "cont"]
  }

  /** `qmls`'s batch, also sent after `-prepare`. */
  function ListBatch(): seq<string> {
    ["info snapshots"]
  }

  /** `qmdel`'s batch: delete, then list the snapshots. */
  function DeleteBatch(name: string): (r: seq<string>)
    ensures |r| == 2 && r[0] == "delvm " + name && r[1] == ListBatch()[0]
  {
    ["delvm " + name, "info snapshots"]
  }

  /** The guest is paused around `cmd`: the monitor reads "stop" first, then
      `cmd`, then "cont", and nothing between them. */
  predicate PausedAround(lines: seq<string>, cmd: string) {
    |lines| >= 3 && lines[..3] == ["stop", cmd, "cont"]
  }

  lemma NoNewlineAfterPrefix(prefix: string, name: string)
    requires NoNewline(prefix) && NoNewline(name)
    ensures NoNewline(prefix + name)
  {
    forall i | 0 <= i < |prefix + name| ensures (prefix + name)[i] != '\n' {
      if i >= |prefix| { assert (prefix + name)[i] == name[i - |prefix|]; }
    }
  }

  /** For a snapshot name without a newline, `savevm` and `loadvm` run with
      the guest stopped, and it is resumed right after. */
  lemma SnapshotsRunPaused(name: string)
    requires NoNewline(name)
    ensures PausedAround(MonitorLines(Payload(Commands(SaveBatch(name)))), "savevm " + name)
    ensures PausedAround(MonitorLines(Payload(Commands(LoadBatch(name)))), "loadvm " + name)
  {
    NoNewlineAfterPrefix("savevm ", name);
    NoNewlineAfterPrefix("loadvm ", name);
    CommandsDelivered(SaveBatch(name));
    CommandsDelivered(LoadBatch(name));
  }

  /** A newline in the snapshot name is not escaped: the text after it reaches
      the monitor as a command of its own, run while the guest is stopped. */
  lemma NewlineInNameAddsCommand()
    ensures MonitorLines(Payload(Commands(SaveBatch("a\nquit"))))
            == ["stop", "savevm a", "quit", "cont", "info snapshots"]
  {
    var split := ["stop", "savevm a", "quit", "cont", "info snapshots"];
    assert "a\nquit" == "a" + "\n" + "quit";
    assert "savevm a" == "savevm " + "a";
    SaveBatchOfTwoLines("a", "quit");
    CommandsDelivered(split);
  }

  /** A name holding one newline splits its `savevm` line in two. */
  lemma SaveBatchOfTwoLines(first: string, second: string)
    ensures Join(SaveBatch(first + "\n" + second), "\n")
            == Join(["stop", "savevm " + first, second, "cont", "info snapshots"], "\n")
  {
    var tail := Join(["cont", "info snapshots"], "\n");
    var lhs := SaveBatch(first + "\n" + second);
    var rhs := ["stop", "savevm " + first, second, "cont", "info snapshots"];
    assert lhs[1..][1..] == ["cont", "info snapshots"];
    assert rhs[1..][1..][1..] == ["cont", "info snapshots"];
    assert Join(lhs[1..], "\n") == ("savevm " + (first + "\n" + second)) + "\n" + tail;
    assert Join(rhs[1..][1..], "\n") == second + "\n" + tail;
    assert Join(rhs[1..], "\n") == ("savevm " + first) + "\n" + (second + "\n" + tail);
    assert ("savevm " + (first + "\n" + second)) + "\n" + tail
           == ("savevm " + first) + "\n" + (second + "\n" + tail);
  }

  /** The result of `qmsave`: success, whether the save is announced in the
      log, and the batch sent. */
  datatype SaveReport = SaveReport(ok: bool, announced: bool, trace: seq<Command>)

  function Batch(container: string, iid: string, lines: seq<string>): Command {
    MonitorBatch(container, iid, Payload(Commands(lines)))
  }

  /** `qmsave` as intended: success is the transport's exit status, and the
      save is announced when the monitor's reply mentions the snapshot. */
  function QmSave(container: string, iid: string, name: string, reply: Proc): (r: SaveReport)
    ensures r.trace == [Batch(container, iid, SaveBatch(name))]
    ensures r.ok <==> reply.code == 0
    ensures r.announced ==> r.ok
  {
    SaveReport(reply.code == 0, reply.code == 0 && Contains(reply.out, name), [Batch(container, iid, SaveBatch(name))])
  }

  /** A successful save whose reply lists the snapshot name is announced. */
  lemma SaveAnnouncedWhenListed(container: string, iid: string, name: string, reply: Proc, at: nat)
    requires reply.code == 0 && OccursAt(reply.out, name, at)
    ensures QmSave(container, iid, name, reply).announced
  {
    ContainsAt(reply.out, name, at);
  }

  /** `qmsave` as written: the announcement tests for the literal text
      "{name}", since the string lacks its f prefix. */
  function QmSaveAsWritten(container: string, iid: string, name: string, reply: Proc): (r: SaveReport)
    ensures r.trace == [Batch(container, iid, SaveBatch(name))]
    ensures r.ok <==> reply.code == 0
    ensures r.announced ==> r.ok
  {
    SaveReport(reply.code == 0, reply.code == 0 && Contains(reply.out, "{name}"), [Batch(container, iid, SaveBatch(name))])
  }

  /** A reply that lists the new snapshot "demo1" is not announced by the code
      as written, while the intended check announces it. */
  lemma SaveAnnouncementMissesName()
    ensures var reply := Proc(0, "1 demo1");
            !QmSaveAsWritten("c", "1", "demo1", reply).announced
            && QmSave("c", "1", "demo1", reply).announced
  {
    var out := "1 demo1";
    forall i: nat ensures !OccursAt(out, "{name}", i) {
      if i < |out| {
        assert out[i] != '{';
      }
    }
    ContainsIff(out, "{name}");
    assert OccursAt(out, "demo1", 2);
    ContainsAt(out, "demo1", 2);
  }

  /** `qmload`, `qmls` and `qmdel`: one batch each; success is the transport's
      exit status. */
  function QmLoad(container: string, iid: string, name: string, reply: Proc): (r: Outcome)
    ensures r.trace == [Batch(container, iid, LoadBatch(name))]
    ensures r.ok <==> reply.code == 0
  {
    Outcome(reply.code == 0, [Batch(container, iid, LoadBatch(name))])
  }

  function QmLs(container: string, iid: string, reply: Proc): (r: Outcome)
    ensures r.trace == [Batch(container, iid, ListBatch())]
    ensures r.ok <==> reply.code == 0
  {
    Outcome(reply.code == 0, [Batch(container, iid, ListBatch())])
  }

  function QmDel(container: string, iid: string, name: string, reply: Proc): (r: Outcome)
    ensures r.trace == [Batch(container, iid, DeleteBatch(name))]
    ensures r.ok <==> reply.code == 0
  {
    Outcome(reply.code == 0, [Batch(container, iid, DeleteBatch(name))])
  }
}

=== FILE: naming.dfy ===
/**
 Sandbox naming: the container that serves a firmware file is called
 `docker<idx>_<sanitized file name>`, and a container name is matched back
 against `^docker\d+_<sanitized>$` to find the sandbox of a firmware file.
 Both scripts use the same sanitizer and pattern.
 */
module Naming {

  import opened Exec
  import opened Text

  /** `s.replace(from, to)` for single characters. */
  function ReplaceChar(s: string, from: char, to: char): (r: string)
    ensures |r| == |s|
    ensures forall i :: 0 <= i < |s| ==> r[i] == if s[i] == from then to else s[i]
  {
    if s == [] then [] else [if s[0] == from then to else s[0]] + ReplaceChar(s[1..], from, to)
  }

  predicate IsSeparator(c: char) {
    c == '/' || c == ' ' || c == '.'
  }

  /** `fw.replace('/', '_').replace(' ', '_').replace('.', '_')`. */
  function Sanitize(firmware: string): (r: string)
    ensures |r| == |firmware|
    ensures forall i :: 0 <= i < |r| ==> r[i] == if IsSeparator(firmware[i]) then '_' else firmware[i]
  {
    ReplaceChar(ReplaceChar(ReplaceChar(firmware, '/', '_'), ' ', '_'), '.', '_')
  }

  /** The name `run_core` gives the sandbox of `firmware`:
      `'docker{}_{}'.format(idx, sanitized)`. */
  function ContainerName(idx: int, firmware: string): (name: string)
    ensures StartsWith(name, "docker")
    ensures EndsWith(name, "_" + Sanitize(firmware))
  {
    "docker" + IntToDecimal(idx) + "_" + Sanitize(firmware)
  }

  /** The regular expression `^docker\d+_<sanitized>$`, read literally: some
      non-empty run of ASCII digits between "docker" and "_<sanitized>". */
  ghost predicate MatchesPattern(name: string, sanitized: string) {
    exists digits :: |digits| > 0 && AllDigits(digits) && name == "docker" + digits + "_" + sanitized
  }

  /** Number of leading ASCII digits of `s`. */
  function LeadingDigits(s: string): (k: nat)
    ensures k <= |s|
    ensures AllDigits(s[..k])
    ensures k < |s| ==> !IsDigit(s[k])
  {
    if s == [] || !IsDigit(s[0]) then 0 else 1 + LeadingDigits(s[1..])
  }

  /** The two variable parts of a name of the form `docker<digits>_<rest>`. */
  datatype NameParts = NameParts(digits: string, sanitized: string)

  /** Reads a container name back into its index digits and sanitized firmware name. */
  function ParseName(name: string): (r: Option<NameParts>)
    ensures r.Some? ==> |r.value.digits| > 0 && AllDigits(r.value.digits)
                        && name == "docker" + r.value.digits + "_" + r.value.sanitized
  {
    if !StartsWith(name, "docker") then None
    else
      var rest := name[6..];
      var k := LeadingDigits(rest);
      if k == 0 || k == |rest| || rest[k] != '_' then None
      else
        assert name == "docker" + rest[..k] + "_" + rest[k + 1..];
        Some(NameParts(rest[..k], rest[k + 1..]))
  }

  /** `pat.match(name)` for the pattern built from `sanitized`. */
  predicate Matches(name: string, sanitized: string)
    ensures Matches(name, sanitized) ==> StartsWith(name, "docker") && EndsWith(name, "_" + sanitized)
  {
    var p := ParseName(name);
    p.Some? && p.value.sanitized == sanitized
  }

  /** The executable matcher accepts exactly the names the pattern describes. */
  lemma MatchesIffPattern(name: string, sanitized: string)
    ensures Matches(name, sanitized) <==> MatchesPattern(name, sanitized)
  {
    if MatchesPattern(name, sanitized) {
      var digits :| |digits| > 0 && AllDigits(digits) && name == "docker" + digits + "_" + sanitized;
      DigitsThenUnderscore(name, digits, sanitized);
    }
  }

  /** In `docker<digits>_<s>` the digit run is exactly the leading digits after
      "docker", so parsing recovers both parts. */
  lemma DigitsThenUnderscore(name: string, digits: string, s: string)
    requires |digits| > 0 && AllDigits(digits)
    requires name == "docker" + digits + "_" + s
    ensures ParseName(name) == Some(NameParts(digits, s))
  {
    var tail := "_" + s;
    var rest := digits + tail;
    assert name == "docker" + rest;
    assert name[..6] == "docker" && name[6..] == rest;
    LeadingDigitsOf(digits, tail);
    var k := |digits|;
    assert rest[k] == '_';
    assert rest[..k] == digits;
    assert rest[k + 1..] == tail[1..] == s;
  }

  lemma {:induction false} LeadingDigitsOf(digits: string, tail: string)
    requires AllDigits(digits)
    requires tail != [] && !IsDigit(tail[0])
    ensures LeadingDigits(digits + tail) == |digits|
  {
    if digits != [] {
      assert (digits + tail)[1..] == digits[1..] + tail;
      LeadingDigitsOf(digits[1..], tail);
    } else {
      assert digits + tail == tail;
    }
  }

  /** A name `run_core` builds is found by the matcher for the same firmware
      exactly when the index is not negative (a negative index prints a '-'). */
  lemma ContainerNameMatches(idx: int, firmware: string)
    ensures Matches(ContainerName(idx, firmware), Sanitize(firmware)) <==> idx >= 0
  {
    var name := ContainerName(idx, firmware);
    if idx >= 0 {
      DigitsThenUnderscore(name, NatToDecimal(idx), Sanitize(firmware));
    } else {
      var rest := name[6..];
      assert rest[0] == '-';
      assert LeadingDigits(rest) == 0;
    }
  }

  /** Parsing a built name gives back the index and the sanitized firmware name. */
  lemma ParseContainerName(idx: nat, firmware: string)
    ensures ParseName(ContainerName(idx, firmware)).Some?
    ensures var p := ParseName(ContainerName(idx, firmware)).value;
            DecimalValue(p.digits) == idx && p.sanitized == Sanitize(firmware)
  {
    DigitsThenUnderscore(ContainerName(idx, firmware), NatToDecimal(idx), Sanitize(firmware));
    DecimalRoundTrip(idx);
  }

  /** A container name matches the pattern of at most one sanitized firmware name. */
  lemma PatternDeterminesFirmware(name: string, s1: string, s2: string)
    requires MatchesPattern(name, s1) && MatchesPattern(name, s2)
    ensures s1 == s2
  {
    MatchesIffPattern(name, s1);
    MatchesIffPattern(name, s2);
  }

  /** The sanitizer is not injective: distinct firmware files can share a
      sandbox name, a collision the scripts do not resolve. */
  lemma SanitizeCollides()
    ensures Sanitize("a.b") == Sanitize("a_b") == Sanitize("a b")
  {
    SanitizesTo("a.b", "a_b");
    SanitizesTo("a b", "a_b");
    SanitizesTo("a_b", "a_b");
  }

  lemma SanitizesTo(firmware: string, sanitized: string)
    requires |firmware| == |sanitized|
    requires forall i :: 0 <= i < |firmware| ==> sanitized[i] == if IsSeparator(firmware[i]) then '_' else firmware[i]
    ensures Sanitize(firmware) == sanitized
  {
  }

  /** Index of the first name in `names` that matches, if any. */
  function FirstMatch(names: seq<string>, sanitized: string): (r: Option<nat>)
    ensures r.Some? ==> r.value < |names| && Matches(names[r.value], sanitized)
                        && forall j :: 0 <= j < r.value ==> !Matches(names[j], sanitized)
    ensures r.None? ==> forall j :: 0 <= j < |names| ==> !Matches(names[j], sanitized)
  {
    if names == [] then None
    else if Matches(names[0], sanitized) then Some(0)
    else match FirstMatch(names[1..], sanitized)
      case None => None
      case Some(i) => Some(i + 1)
  }

  datatype State = Running | Stopped

  datatype Located = Located(container: string, state: State)

  /** `name` is the first element of `names` that matches `sanitized`. */
  ghost predicate IsFirstMatch(names: seq<string>, sanitized: string, name: string) {
    exists i :: 0 <= i < |names| && names[i] == name && Matches(name, sanitized)
                && forall j :: 0 <= j < i ==> !Matches(names[j], sanitized)
  }

  ghost predicate AnyMatch(names: seq<string>, sanitized: string) {
    exists i :: 0 <= i < |names| && Matches(names[i], sanitized)
  }

  /** The search both scripts perform: the running containers first, then all
      containers; the first match wins and is tagged with the list it came from. */
  function Locate(firmware: string, running: seq<string>, all: seq<string>): (r: Option<Located>)
    ensures var s := Sanitize(firmware);
            && (r.Some? && r.value.state == Running <==> AnyMatch(running, s))
            && (r.Some? && r.value.state == Running ==> IsFirstMatch(running, s, r.value.container))
            && (r.Some? && r.value.state == Stopped ==> !AnyMatch(running, s) && IsFirstMatch(all, s, r.value.container))
            && (r.None? <==> !AnyMatch(running, s) && !AnyMatch(all, s))
  {
    var s := Sanitize(firmware);
    match FirstMatch(running, s)
    case Some(i) => Some(Located(running[i], Running))
    case None =>
      match FirstMatch(all, s)
      case Some(j) => Some(Located(all[j], Stopped))
      case None => None
  }

  /** The `docker ps` argv both scripts use; `-a` adds stopped containers. */
  function PsArgv(all: bool): seq<string> {
    ["docker", "ps"] + (if all then ["-a"] else []) + ["--format", "{{.Names}} {{.Status}}"]
  }

  /** The listings the search asks for: all containers are listed only when
      no running container matched. */
  function LocateTrace(firmware: string, running: seq<string>): (t: seq<Command>)
    ensures |t| >= 1 && t[0] == Docker(PsArgv(false))
    ensures |t| <= 2
    ensures |t| == 2 <==> !AnyMatch(running, Sanitize(firmware))
    ensures |t| == 2 ==> t[1] == Docker(PsArgv(true))
    ensures forall k :: 0 <= k < |t| ==> t[k].Docker?
  {
    match FirstMatch(running, Sanitize(firmware))
    case Some(_) => [Docker(PsArgv(false))]
    case None => [Docker(PsArgv(false)), Docker(PsArgv(true))]
  }
}

=== FILE: paths.dfy ===
/**
 The path helpers the scripts call: `os.path.basename`, `os.path.dirname`
 (POSIX flavour) and the extension-stripping `name.rsplit('.', 1)[0]`.
 */
module Paths {

  import opened Exec
  import opened Text

  predicate IsSlash(c: char) {
    c == '/'
  }

  /** `os.path.basename(p)`: the text after the last '/'. */
  function Basename(p: string): (r: string)
    ensures forall i :: 0 <= i < |r| ==> r[i] != '/'
    ensures EndsWith(p, r)
    ensures |r| < |p| ==> p[|p| - |r| - 1] == '/'
  {
    match LastIndex(p, '/')
    case None => p
    case Some(i) => p[i + 1..]
  }

  /** `os.path.dirname(p)`: the text up to the last '/', with trailing
      slashes removed unless it consists of slashes only. */
  function Dirname(p: string): (r: string)
    ensures StartsWith(p, r)
    ensures |r| <= |p| - |Basename(p)|
    ensures r == [] <==> forall i :: 0 <= i < |p| ==> p[i] != '/'
    ensures r == [] || r[|r| - 1] != '/' || All(r, IsSlash)
    ensures forall i :: |r| <= i < |p| - |Basename(p)| ==> p[i] == '/'
    ensures All(p[..|p| - |Basename(p)|], IsSlash) ==> r == p[..|p| - |Basename(p)|]
    ensures r != [] && All(r, IsSlash) ==> |r| == |p| - |Basename(p)|
  {
    match LastIndex(p, '/')
    case None => []
    case Some(i) =>
      var head := p[..i + 1];
      if All(head, IsSlash) then head
      else
        RStrip(head, IsSlash)
  }

  /** `name.rsplit('.', 1)[0]`: the name without its last extension. */
  function Stem(name: string): (r: string)
    ensures StartsWith(name, r)
    ensures r == name <==> forall i :: 0 <= i < |name| ==> name[i] != '.'
    ensures r != name ==> name[|r|] == '.' && forall i :: |r| < i < |name| ==> name[i] != '.'
  {
    match LastIndex(name, '.')
    case None => name
    case Some(i) => name[..i]
  }
}

=== FILE: prepare.dfy ===
/**
 `ensure_qcow2_and_restart` of docker-helper-qemu.py: make sure the instance
 runs from a qcow2 disk image (which `savevm` needs), restart QEMU, and wait
 for its monitor socket, polling at most 180 times.
 */
module Prepare {

  import opened Exec
  import opened Text

  const PollLimit := 180

  /** The results of the calls the flow makes. The tool installation, the
      run.sh patch, the kill and the log tail are run for their effect only;
      their results are not consulted. */
  datatype World = World(convert: Proc, relaunch: Proc, probes: seq<Proc>)

  /** A socket probe succeeds when it exits 0 and prints "ok". */
  predicate SocketReady(p: Proc) {
    p.code == 0 && Contains(p.out, "ok")
  }

  /** The commands issued before the first socket probe. */
  function Restart(container: string, iid: string): seq<Command> {
    [InContainer(container, EnsureQemuImg(iid)), InContainer(container, ConvertToQcow2(iid)),
     InContainer(container, PatchRunScript(iid)), InContainer(container, KillQemu),
     InContainer(container, Relaunch(iid))]
  }

  function Probes(container: string, iid: string, n: nat): (r: seq<Command>)
    ensures |r| == n && forall k :: 0 <= k < n ==> r[k] == InContainer(container, SocketProbe(iid))
  {
    seq(n, _ => InContainer(container, SocketProbe(iid)))
  }

  /** Index of the first ready probe among the first `limit`, or `limit`. */
  function FirstReady(probes: seq<Proc>, from: nat, limit: nat): (k: nat)
    requires from <= limit <= |probes|
    ensures from <= k <= limit
    ensures k < limit ==> SocketReady(probes[k])
    ensures forall j :: from <= j < k ==> !SocketReady(probes[j])
    decreases limit - from
  {
    if from == limit || SocketReady(probes[from]) then from
    else FirstReady(probes, from + 1, limit)
  }

  /** The flow as a function of the call results. */
  function Prepared(container: string, iid: string, w: World): (r: Outcome)
    requires |w.probes| >= PollLimit
    ensures |r.trace| >= 2 && r.trace[..2] == Restart(container, iid)[..2]
    ensures w.convert.code != 0 ==> !r.ok && |r.trace| == 2
    ensures w.convert.code == 0 ==> |r.trace| >= 5 && (|r.trace| == 5 <==> w.relaunch.code != 0)
    ensures w.convert.code == 0 ==> r.trace[..5] == Restart(container, iid)
    ensures r.ok <==> w.convert.code == 0 && w.relaunch.code == 0
                      && exists i :: 0 <= i < PollLimit && SocketReady(w.probes[i])
    ensures r.ok ==> var k := |r.trace| - 5;
                     1 <= k <= PollLimit && SocketReady(w.probes[k - 1])
                     && (forall j :: 0 <= j < k - 1 ==> !SocketReady(w.probes[j]))
                     && r.trace[5..] == Probes(container, iid, k)
    ensures w.convert.code == 0 && w.relaunch.code == 0 && !r.ok ==>
              r.trace == Restart(container, iid) + Probes(container, iid, PollLimit)
                         + [InContainer(container, TailRelaunchLog(iid))]
  {
    var start := Restart(container, iid);
    if w.convert.code != 0 then Outcome(false, start[..2])
    else if w.relaunch.code != 0 then Outcome(false, start)
    else
      var k := FirstReady(w.probes, 0, PollLimit);
      if k < PollLimit then
        var t := start + Probes(container, iid, k + 1);
        assert t[5..] == Probes(container, iid, k + 1);
        Outcome(true, t)
      else Outcome(false, start + Probes(container, iid, PollLimit) + [InContainer(container, TailRelaunchLog(iid))])
  }

  /** `ensure_qcow2_and_restart` with its polling loop. */
  method EnsureQcow2AndRestart(container: string, iid: string, w: World) returns (ok: bool, trace: seq<Command>)
    requires |w.probes| >= PollLimit
    ensures Outcome(ok, trace) == Prepared(container, iid, w)
  {
    trace := [InContainer(container, EnsureQemuImg(iid)), InContainer(container, ConvertToQcow2(iid))];
    if w.convert.code != 0 {
      return false, trace;
    }
    trace := trace + [InContainer(container, PatchRunScript(iid)), InContainer(container, KillQemu),
                      InContainer(container, Relaunch(iid))];
    if w.relaunch.code != 0 {
      return false, trace;
    }
    var n := 0;
    while n < PollLimit
      invariant n <= PollLimit
      invariant trace == Restart(container, iid) + Probes(container, iid, n)
      invariant forall j :: 0 <= j < n ==> !SocketReady(w.probes[j])
    {
      trace := trace + [InContainer(container, SocketProbe(iid))];
      assert Probes(container, iid, n) + [InContainer(container, SocketProbe(iid))] == Probes(container, iid, n + 1);
      if SocketReady(w.probes[n]) {
        assert FirstReady(w.probes, 0, PollLimit) == n by {
          FirstReadyIs(w.probes, 0, n, PollLimit);
        }
        return true, trace;
      }
      n := n + 1;
    }
    assert FirstReady(w.probes, 0, PollLimit) == PollLimit by {
      FirstReadyIs(w.probes, 0, PollLimit, PollLimit);
    }
    trace := trace + [InContainer(container, TailRelaunchLog(iid))];
    ok := false;
  }

  /** The first ready probe is determined by the ones before it. */
  lemma {:induction false} FirstReadyIs(probes: seq<Proc>, from: nat, k: nat, limit: nat)
    requires from <= k <= limit <= |probes|
    requires forall j :: from <= j < k ==> !SocketReady(probes[j])
    requires k < limit ==> SocketReady(probes[k])
    ensures FirstReady(probes, from, limit) == k
    decreases k - from
  {
    if from < k {
      FirstReadyIs(probes, from + 1, k, limit);
    }
  }

  /** Boundary cases of the poll: a socket ready at the last allowed probe is
      still seen, one ready only at the probe after it is not. */
  lemma LastProbeCounts(container: string, iid: string, w: World)
    requires |w.probes| > PollLimit
    requires w.convert.code == 0 && w.relaunch.code == 0
    requires forall j :: 0 <= j < PollLimit - 1 ==> !SocketReady(w.probes[j])
    ensures SocketReady(w.probes[PollLimit - 1]) ==> Prepared(container, iid, w).ok
    ensures !SocketReady(w.probes[PollLimit - 1]) ==> !Prepared(container, iid, w).ok
  {
  }
}

=== FILE: qemucli.dfy ===
/**
 The command line of docker-helper-qemu.py: resolve the firmware file to a
 sandbox and an emulation instance, then prepare the instance for live
 snapshots or send one monitor batch.
 */
module QemuCli {

  import opened Exec
  import opened Text
  import opened Paths
  import opened Naming
  import opened Listing
  import opened Instances
  import opened Monitor
  import opened Prepare

  /** `find_container_for_firmware`: the names come from the unfiltered
      listing, so a paused sandbox counts as running. */
  function FindContainer(firmware: string, ps: Proc, psAll: Proc): (r: Option<Located>)
    ensures r.Some? ==> Matches(r.value.container, Sanitize(firmware))
    ensures r.Some? && r.value.state == Running <==> AnyMatch(Names(ContainerEntries(ps)), Sanitize(firmware))
    ensures r.None? <==> !AnyMatch(Names(ContainerEntries(ps)), Sanitize(firmware))
                         && !AnyMatch(Names(ContainerEntries(psAll)), Sanitize(firmware))
  {
    Locate(firmware, Names(ContainerEntries(ps)), Names(ContainerEntries(psAll)))
  }

  /** `ensure_container_running`. */
  function EnsureRunning(container: string, state: State, start: Proc): (r: Outcome)
    ensures state == Running ==> r == Outcome(true, [])
    ensures state == Stopped ==> r.trace == [Docker(["docker", "start", container])] && (r.ok <==> start.code == 0)
  {
    if state == Running then Outcome(true, [])
    else Outcome(start.code == 0, [Docker(["docker", "start", container])])
  }

  /** A paused sandbox: docker-helper-qemu.py reports it running and targets
      it, while docker-helper.py does not see it in either listing. */
  lemma PausedSandboxIsRunningHere(idx: nat, firmware: string, status: string, psAll: Proc)
    requires Contains(status, "Paused")
    requires forall i :: 0 <= i < |status| ==> !IsLineBreak(status[i])
    requires forall i :: 0 <= i < |firmware| ==> !IsSpace(firmware[i])
    ensures var listing := ContainerName(idx, firmware) + " " + status;
            && FindContainer(firmware, Proc(0, listing), psAll) == Some(Located(ContainerName(idx, firmware), Running))
            && Locate(firmware, ContainerNames(false, Ran(Proc(0, listing))), ContainerNames(false, Ran(Proc(0, listing)))) == None
  {
    var name := ContainerName(idx, firmware);
    ContainerNameMatches(idx, firmware);
    NameHasNoSpace(idx, firmware);
    PausedHiddenOnlyByHelper(name, status);
    assert Names([Entry(name, status)]) == [name];
  }

  lemma NameHasNoSpace(idx: nat, firmware: string)
    requires forall i :: 0 <= i < |firmware| ==> !IsSpace(firmware[i])
    ensures ContainerName(idx, firmware) != ""
    ensures forall i :: 0 <= i < |ContainerName(idx, firmware)| ==> !IsSpace(ContainerName(idx, firmware)[i])
  {
    var d := NatToDecimal(idx);
    var s := Sanitize(firmware);
    var name := ContainerName(idx, firmware);
    assert name == "docker" + d + "_" + s;
    forall i | 0 <= i < |name| ensures !IsSpace(name[i]) {
      if i < 6 {
      } else if i < 6 + |d| {
        assert name[i] == d[i - 6];
      } else if i == 6 + |d| {
      } else {
        assert name[i] == s[i - 7 - |d|];
      }
    }
  }

  /** No monitor batch is among the commands. */
  predicate NoBatch(trace: seq<Command>) {
    forall k :: 0 <= k < |trace| ==> !trace[k].MonitorBatch?
  }

  lemma NoBatchAppend(a: seq<Command>, b: seq<Command>)
    requires NoBatch(a) && NoBatch(b)
    ensures NoBatch(a + b)
  {
    forall k | 0 <= k < |a + b| ensures !(a + b)[k].MonitorBatch? {
      if k >= |a| { assert (a + b)[k] == b[k - |a|]; }
    }
  }

  /** The sandbox and instance a command targets. */
  datatype Target = Target(container: string, iid: string)

  datatype Resolution = Resolution(target: Option<Target>, trace: seq<Command>)

  /** The call results the command line consumes, in the order it asks. */
  datatype Host = Host(ps: Proc, psAll: Proc, start: Proc, scan: Proc,
                       world: World, monitorCheck: Proc, reply: Proc)

  /** The part of `main` before the mode is looked at: locate the sandbox,
      start it if needed, find the instance. */
  function Resolve(firmware: string, h: Host): (r: Resolution)
    ensures var loc := FindContainer(firmware, h.ps, h.psAll);
            r.target.Some? <==>
              && loc.Some?
              && EnsureRunning(loc.value.container, loc.value.state, h.start).ok
              && InstanceId(h.scan).Instance?
    ensures r.target.Some? ==> Matches(r.target.value.container, Sanitize(firmware))
                               && r.target.value.iid != ""
    ensures r.target.Some? ==> |r.trace| >= 1 && r.trace[|r.trace| - 1] == InContainer(r.target.value.container, ScanInstances(Stem(firmware)))
    ensures r.target.Some? ==>
              r.target.value == Target(FindContainer(firmware, h.ps, h.psAll).value.container, InstanceId(h.scan).iid)
    ensures NoBatch(r.trace)
    ensures FindContainer(firmware, h.ps, h.psAll).None? ==> r.trace == LocateTrace(firmware, Names(ContainerEntries(h.ps)))
    ensures var loc := FindContainer(firmware, h.ps, h.psAll);
            loc.Some? ==>
              var started := EnsureRunning(loc.value.container, loc.value.state, h.start);
              r.trace == LocateTrace(firmware, Names(ContainerEntries(h.ps))) + started.trace
                         + if started.ok then [InContainer(loc.value.container, ScanInstances(Stem(firmware)))] else []
  {
    var listed := LocateTrace(firmware, Names(ContainerEntries(h.ps)));
    match FindContainer(firmware, h.ps, h.psAll)
    case None => Resolution(None, listed)
    case Some(loc) => FromSandbox(listed, loc, Stem(firmware), h)
  }

  /** `Resolve` once the sandbox is known. */
  function FromSandbox(listed: seq<Command>, loc: Located, stem: string, h: Host): (r: Resolution)
    requires NoBatch(listed)
    ensures r.target.Some? <==> EnsureRunning(loc.container, loc.state, h.start).ok && InstanceId(h.scan).Instance?
    ensures r.target.Some? ==> r.target.value == Target(loc.container, InstanceId(h.scan).iid)
    ensures r.target.Some? ==> |r.trace| >= 1 && r.trace[|r.trace| - 1] == InContainer(loc.container, ScanInstances(stem))
    ensures NoBatch(r.trace)
    ensures !EnsureRunning(loc.container, loc.state, h.start).ok ==>
              r.trace == listed + EnsureRunning(loc.container, loc.state, h.start).trace
    ensures EnsureRunning(loc.container, loc.state, h.start).ok ==>
              r.trace == listed + EnsureRunning(loc.container, loc.state, h.start).trace + [InContainer(loc.container, ScanInstances(stem))]
  {
    var started := EnsureRunning(loc.container, loc.state, h.start);
    NoBatchAppend(listed, started.trace);
    if !started.ok then Resolution(None, listed + started.trace)
    else
      var scan := [InContainer(loc.container, ScanInstances(stem))];
      NoBatchAppend(listed + started.trace, scan);
      match InstanceId(h.scan)
      case Instance(iid) => Resolution(Some(Target(loc.container, iid)), listed + started.trace + scan)
      case _ => Resolution(None, listed + started.trace + scan)
  }

  predicate NeedsName(mode: string) {
    mode == "-qmsave" || mode == "-qmload" || mode == "-qmdel"
  }

  /** The monitor batch a mode sends, given the snapshot name. */
  function ModeBatch(mode: string, name: string): seq<string> {
    if mode == "-qmsave" then SaveBatch(name)
    else if mode == "-qmload" then LoadBatch(name)
    else if mode == "-qmdel" then DeleteBatch(name)
    else ListBatch()
  }

  predicate IsMode(mode: string) {
    mode == "-prepare" || mode == "-qmls" || NeedsName(mode)
  }

  /** A monitor mode succeeds: it is a known mode other than `-prepare`, its
      snapshot name is given when it needs one, the socket check found the
      monitor and the batch was delivered. */
  predicate MonitorSucceeds(argv: seq<string>, h: Host)
    requires |argv| >= 2
  {
    && argv[1] != "-prepare" && IsMode(argv[1])
    && (NeedsName(argv[1]) ==> |argv| >= 4)
    && SocketReady(h.monitorCheck) && h.reply.code == 0
  }

  /** The mode of `argv` succeeds on the resolved target. */
  predicate ModeSucceeds(argv: seq<string>, t: Target, h: Host)
    requires |argv| >= 2 && |h.world.probes| >= PollLimit
  {
    if argv[1] == "-prepare" then Prepared(t.container, t.iid, h.world).ok else MonitorSucceeds(argv, h)
  }

  /** `main` of docker-helper-qemu.py, given the arguments (`argv[0]` is the
      program) and the call results. */
  function QemuMain(argv: seq<string>, h: Host): (r: Exit)
    requires |h.world.probes| >= PollLimit
    ensures r.status == 0 || r.status == 1
    ensures |argv| < 3 ==> r == Exit(1, [])
    ensures r.status == 0 ==> |argv| >= 3 && IsMode(argv[1]) && (NeedsName(argv[1]) ==> |argv| >= 4)
    ensures r.status == 0 ==> Resolve(Basename(argv[2]), h).target.Some?
    ensures |argv| >= 3 && !IsMode(argv[1]) ==> r.status == 1 && NoBatch(r.trace)
    ensures |argv| >= 3 && Resolve(Basename(argv[2]), h).target.None? ==> r == Exit(1, Resolve(Basename(argv[2]), h).trace)
    ensures r.status == 0 <==>
              |argv| >= 3 && Resolve(Basename(argv[2]), h).target.Some?
              && ModeSucceeds(argv, Resolve(Basename(argv[2]), h).target.value, h)
  {
    if |argv| < 3 then Exit(1, []) else Dispatch(argv, Resolve(Basename(argv[2]), h), h)
  }

  /** `main` once the target is resolved (or not). */
  function Dispatch(argv: seq<string>, res: Resolution, h: Host): (r: Exit)
    requires |argv| >= 3 && NoBatch(res.trace)
    requires |h.world.probes| >= PollLimit
    ensures r.status == 0 || r.status == 1
    ensures r.status == 0 ==> IsMode(argv[1]) && (NeedsName(argv[1]) ==> |argv| >= 4) && res.target.Some?
    ensures !IsMode(argv[1]) ==> r.status == 1 && NoBatch(r.trace)
    ensures res.target.Some? && argv[1] != "-prepare" ==> r == MonitorMode(argv, res.target.value, res.trace, h)
    ensures res.target.None? ==> r == Exit(1, res.trace)
    ensures res.target.Some? && argv[1] == "-prepare" ==> r == PrepareMode(res.target.value, res.trace, h)
    ensures r.status == 0 <==> res.target.Some? && ModeSucceeds(argv, res.target.value, h)
  {
    match res.target
    case None => Exit(1, res.trace)
    case Some(t) =>
      if argv[1] == "-prepare" then PrepareMode(t, res.trace, h)
      else
        var r := MonitorMode(argv, t, res.trace, h);
        assert !IsMode(argv[1]) ==> NoBatch(r.trace) by {
          NoBatchAppend(res.trace, [InContainer(t.container, SocketProbe(t.iid))]);
        }
        r
  }

  /** Every monitor mode that succeeds sent exactly one batch, the one for
      its mode, right after a socket check that found the monitor. */
  lemma BatchFollowsSocketCheck(argv: seq<string>, h: Host)
    requires |h.world.probes| >= PollLimit
    requires |argv| >= 3 && argv[1] != "-prepare"
    ensures QemuMain(argv, h).status == 0 ==>
            var t := Resolve(Basename(argv[2]), h).target.value;
            var trace := QemuMain(argv, h).trace;
            && SocketReady(h.monitorCheck)
            && |trace| >= 2
            && trace[|trace| - 2] == InContainer(t.container, SocketProbe(t.iid))
            && trace[|trace| - 1] == Batch(t.container, t.iid, ModeBatch(argv[1], if NeedsName(argv[1]) then argv[3] else ""))
  {
    var res := Resolve(Basename(argv[2]), h);
    MainDispatches(argv, h);
    assert NoBatch(res.trace);
    DispatchedBatch(argv, res, h);
  }

  lemma MainDispatches(argv: seq<string>, h: Host)
    requires |h.world.probes| >= PollLimit && |argv| >= 3
    ensures QemuMain(argv, h) == Dispatch(argv, Resolve(Basename(argv[2]), h), h)
  {
  }

  lemma DispatchedBatch(argv: seq<string>, res: Resolution, h: Host)
    requires |h.world.probes| >= PollLimit
    requires |argv| >= 3 && argv[1] != "-prepare" && NoBatch(res.trace)
    ensures Dispatch(argv, res, h).status == 0 ==> res.target.Some?
    ensures Dispatch(argv, res, h).status == 0 ==>
            var t := res.target.value;
            var trace := Dispatch(argv, res, h).trace;
            && SocketReady(h.monitorCheck)
            && |trace| >= 2
            && trace[|trace| - 2] == InContainer(t.container, SocketProbe(t.iid))
            && trace[|trace| - 1] == Batch(t.container, t.iid, ModeBatch(argv[1], if NeedsName(argv[1]) then argv[3] else ""))
  {
    if Dispatch(argv, res, h).status == 0 {
      var t := res.target.value;
      var before := res.trace;
      var r := MonitorMode(argv, t, before, h);
      var probed := before + [InContainer(t.container, SocketProbe(t.iid))];
      assert r.trace[..|before| + 1] == probed;
      assert r.trace[|before|] == probed[|before|];
    }
  }

  /** `-prepare`: convert and restart, then list the snapshots. */
  function PrepareMode(t: Target, before: seq<Command>, h: Host): (r: Exit)
    requires |h.world.probes| >= PollLimit
    ensures r.status == 0 <==> Prepared(t.container, t.iid, h.world).ok
    ensures r.status == 1 || r.status == 0
    ensures r.status == 0 ==> r.trace == before + Prepared(t.container, t.iid, h.world).trace + [Batch(t.container, t.iid, ListBatch())]
    ensures r.status != 0 ==> r.trace == before + Prepared(t.container, t.iid, h.world).trace
  {
    var p := Prepared(t.container, t.iid, h.world);
    if !p.ok then Exit(1, before + p.trace)
    else Exit(0, before + p.trace + [Batch(t.container, t.iid, ListBatch())])
  }

  /** The monitor modes: check the socket, then send the mode's batch. */
  function MonitorMode(argv: seq<string>, t: Target, before: seq<Command>, h: Host): (r: Exit)
    requires |argv| >= 2
    ensures r.status == 0 || r.status == 1
    ensures |r.trace| == |before| + 1 || |r.trace| == |before| + 2
    ensures r.trace[..|before| + 1] == before + [InContainer(t.container, SocketProbe(t.iid))]
    ensures r.status == 0 ==> IsMode(argv[1]) && (NeedsName(argv[1]) ==> |argv| >= 4) && SocketReady(h.monitorCheck)
    ensures r.status == 0 ==> |r.trace| == |before| + 2
                              && r.trace[|before| + 1] == Batch(t.container, t.iid, ModeBatch(argv[1], if NeedsName(argv[1]) then argv[3] else ""))
    ensures !IsMode(argv[1]) ==> r == Exit(1, before + [InContainer(t.container, SocketProbe(t.iid))])
    ensures !SocketReady(h.monitorCheck) ==> r == Exit(1, before + [InContainer(t.container, SocketProbe(t.iid))])
    ensures NeedsName(argv[1]) && |argv| < 4 ==> r == Exit(1, before + [InContainer(t.container, SocketProbe(t.iid))])
    ensures r.status == 0 <==> MonitorSucceeds(argv, h)
    ensures SocketReady(h.monitorCheck) && IsMode(argv[1]) && argv[1] != "-prepare" && (NeedsName(argv[1]) ==> |argv| >= 4) ==>
              r.trace == before + [InContainer(t.container, SocketProbe(t.iid)),
                                   Batch(t.container, t.iid, ModeBatch(argv[1], if NeedsName(argv[1]) then argv[3] else ""))]
  {
    var mode := argv[1];
    var probed := before + [InContainer(t.container, SocketProbe(t.iid))];
    if !SocketReady(h.monitorCheck) then Exit(1, probed)
    else if NeedsName(mode) && |argv| < 4 then Exit(1, probed)
    else if !IsMode(mode) || mode == "-prepare" then Exit(1, probed)
    else
      var s := SendMode(mode, t, if NeedsName(mode) then argv[3] else "", h.reply);
      Exit(if s.ok then 0 else 1, probed + s.trace)
  }

  /** The `qm*` call a monitor mode makes once the socket is ready and its
      arguments are present. */
  function SendMode(mode: string, t: Target, name: string, reply: Proc): (s: Outcome)
    requires IsMode(mode) && mode != "-prepare"
    ensures s.trace == [Batch(t.container, t.iid, ModeBatch(mode, name))]
    ensures s.ok <==> reply.code == 0
  {
    if mode == "-qmsave" then
      var q := QmSave(t.container, t.iid, name, reply);
      Outcome(q.ok, q.trace)
    else if mode == "-qmload" then QmLoad(t.container, t.iid, name, reply)
    else if mode == "-qmls" then QmLs(t.container, t.iid, reply)
    else QmDel(t.container, t.iid, name, reply)
  }

  /** A worked example: the firmware file /fw/router_fw.bin has the file
      name router_fw.bin, and its instance is looked up under the stem router_fw. */
  lemma RouterBasename()
    ensures Basename("/fw/router_fw.bin") == "router_fw.bin"
  {
    var p := "/fw/router_fw.bin";
    assert p[3] == '/' && forall j :: 3 < j < |p| ==> p[j] != '/';
  }

  lemma RouterStem()
    ensures Stem("router_fw.bin") == "router_fw"
  {
    var b := "router_fw.bin";
    assert b[9] == '.' && forall j :: 9 < j < |b| ==> b[j] != '.';
  }
}

=== FILE: text.dfy ===
/**
 The parts of Python's `str` behaviour the scripts rely on: whitespace,
 `strip`, `split('\n')`, `splitlines()`, substring tests, `lower()` on the
 words the scripts compare against, and decimal formatting of integers.
 */
module Text {

  import opened Exec

  /** `str.isspace()`: the characters `strip()` removes. */
  predicate IsSpace(c: char) {
    var n := c as int;
    n == 0x20 || 0x09 <= n <= 0x0D || 0x1C <= n <= 0x1F || n == 0x85 || n == 0xA0
    || n == 0x1680 || 0x2000 <= n <= 0x200A || n == 0x2028 || n == 0x2029
    || n == 0x202F || n == 0x205F || n == 0x3000
  }

  /** The line boundaries of `str.splitlines()`. "\r\n" is one boundary there
      and two here; the extra empty line this yields is always discarded by
      the callers, which skip blank lines. */
  predicate IsLineBreak(c: char) {
    var n := c as int;
    0x0A <= n <= 0x0D || 0x1C <= n <= 0x1E || n == 0x85 || n == 0x2028 || n == 0x2029
  }

  predicate IsNewline(c: char) {
    c == '\n'
  }

  /** Every character of `s` satisfies `p`. */
  predicate All(s: string, p: char -> bool) {
    forall i :: 0 <= i < |s| ==> p(s[i])
  }

  predicate IsBlank(s: string) {
    All(s, IsSpace)
  }

  /** `s` without its longest prefix of `drop` characters. */
  function LStrip(s: string, drop: char -> bool): (r: string)
    ensures |r| <= |s| && r == s[|s| - |r|..]
    ensures All(s[..|s| - |r|], drop)
    ensures r == [] || !drop(r[0])
  {
    if s == [] || !drop(s[0]) then s else LStrip(s[1..], drop)
  }

  /** `s` without its longest suffix of `drop` characters. */
  function RStrip(s: string, drop: char -> bool): (r: string)
    ensures |r| <= |s| && r == s[..|r|]
    ensures All(s[|r|..], drop)
    ensures r == [] || !drop(r[|r| - 1])
  {
    if s == [] || !drop(s[|s| - 1]) then s else RStrip(s[..|s| - 1], drop)
  }

  /** `str.strip()`. */
  function Strip(s: string): (r: string)
    ensures |r| <= |s|
    ensures r == [] <==> IsBlank(s)
    ensures r != [] ==> !IsSpace(r[0]) && !IsSpace(r[|r| - 1])
    ensures BlankAround(s, r)
  {
    var l := LStrip(s, IsSpace);
    var r := RStrip(l, IsSpace);
    StripSpan(s, l, r);
    r
  }

  /** `r` is a span of `s` with only whitespace before and after it. */
  ghost predicate BlankAround(s: string, r: string) {
    exists i :: 0 <= i <= |s| - |r| && r == s[i..i + |r|] && IsBlank(s[..i]) && IsBlank(s[i + |r|..])
  }

  /** The stripped text is a span of `s` with blank text on either side. */
  lemma StripSpan(s: string, l: string, r: string)
    requires |l| <= |s| && l == s[|s| - |l|..] && All(s[..|s| - |l|], IsSpace)
    requires l == [] || !IsSpace(l[0])
    requires |r| <= |l| && r == l[..|r|] && All(l[|r|..], IsSpace)
    requires r == [] || !IsSpace(r[|r| - 1])
    ensures BlankAround(s, r)
    ensures r == [] <==> IsBlank(s)
    ensures r != [] ==> !IsSpace(r[0]) && !IsSpace(r[|r| - 1])
  {
    var i := |s| - |l|;
    if r != [] {
      assert r[0] == l[0];
      assert s[i] == l[0];
    }
    assert s[i + |r|..] == l[|r|..];
    assert r == s[i..i + |r|];
    if r == [] {
      assert s == s[..i] + s[i..];
      AllConcat(s[..i], s[i..], IsSpace);
    }
  }

  lemma AllConcat(x: string, y: string, p: char -> bool)
    requires All(x, p) && All(y, p)
    ensures All(x + y, p)
  {
    forall i | 0 <= i < |x + y| ensures p((x + y)[i]) {
      if i >= |x| { assert (x + y)[i] == y[i - |x|]; }
    }
  }

  /** Index of the first `sep` character of `s`, or |s| if there is none. */
  function FirstWhere(s: string, sep: char -> bool): (i: nat)
    ensures i <= |s|
    ensures i < |s| ==> sep(s[i])
    ensures forall j :: 0 <= j < i ==> !sep(s[j])
  {
    if s == [] then 0
    else if sep(s[0]) then 0
    else 1 + FirstWhere(s[1..], sep)
  }

  /** Python's `s.split(c)` generalised to a set of separator characters:
      the pieces between separators, empty pieces included. */
  function SplitWhere(s: string, sep: char -> bool): (r: seq<string>)
    ensures |r| >= 1
    ensures forall k :: 0 <= k < |r| ==> forall i :: 0 <= i < |r[k]| ==> !sep(r[k][i])
    decreases |s|
  {
    var i := FirstWhere(s, sep);
    if i == |s| then [s] else [s[..i]] + SplitWhere(s[i + 1..], sep)
  }

  /** `sep.join(xs)`. */
  function Join(xs: seq<string>, sep: string): string {
    if |xs| == 0 then ""
    else if |xs| == 1 then xs[0]
    else xs[0] + sep + Join(xs[1..], sep)
  }

  predicate NoNewline(s: string) {
    forall i :: 0 <= i < |s| ==> s[i] != '\n'
  }

  /** Splitting at "\n" and joining with "\n" gives back the text. */
  lemma {:induction false} JoinSplit(s: string)
    ensures Join(SplitWhere(s, IsNewline), "\n") == s
    decreases |s|
  {
    var i := FirstWhere(s, IsNewline);
    if i < |s| {
      var head, rest := s[..i], s[i + 1..];
      JoinSplit(rest);
      var tail := SplitWhere(rest, IsNewline);
      var xs := SplitWhere(s, IsNewline);
      assert xs == [head] + tail;
      assert |xs| >= 2 && xs[0] == head && xs[1..] == tail;
      assert Join(xs, "\n") == head + "\n" + Join(tail, "\n");
      assert s == head + "\n" + rest by {
        assert s[i] == '\n';
        assert s == head + [s[i]] + rest;
      }
    }
  }

  /** Joining newline-free pieces with "\n" and splitting at "\n" gives back the pieces. */
  lemma {:induction false} SplitJoin(xs: seq<string>)
    requires |xs| >= 1
    requires forall k :: 0 <= k < |xs| ==> NoNewline(xs[k])
    ensures SplitWhere(Join(xs, "\n"), IsNewline) == xs
  {
    if |xs| == 1 {
      var i := FirstWhere(xs[0], IsNewline);
      assert i == |xs[0]|;
    } else {
      var s := Join(xs, "\n");
      var rest := Join(xs[1..], "\n");
      assert s == xs[0] + "\n" + rest;
      var i := FirstWhere(s, IsNewline);
      assert s[|xs[0]|] == '\n';
      assert i == |xs[0]|;
      assert s[..i] == xs[0];
      assert s[i + 1..] == rest;
      SplitJoin(xs[1..]);
    }
  }

  predicate StartsWith(s: string, prefix: string) {
    |prefix| <= |s| && s[..|prefix|] == prefix
  }

  predicate EndsWith(s: string, suffix: string) {
    |suffix| <= |s| && s[|s| - |suffix|..] == suffix
  }

  /** Python's `t in s` for strings. */
  predicate Contains(s: string, t: string)
    decreases |s|
  {
    StartsWith(s, t) || (s != [] && Contains(s[1..], t))
  }

  /** `t` occurs in `s` starting at index `i`. */
  predicate OccursAt(s: string, t: string, i: nat) {
    i + |t| <= |s| && s[i..i + |t|] == t
  }

  lemma {:induction false} ContainsAt(s: string, t: string, i: nat)
    requires OccursAt(s, t, i)
    ensures Contains(s, t)
    decreases i
  {
    if i > 0 {
      assert s[1..][i - 1..i - 1 + |t|] == s[i..i + |t|];
      ContainsAt(s[1..], t, i - 1);
    }
  }

  lemma {:induction false} ContainsWitness(s: string, t: string)
    requires Contains(s, t)
    ensures exists i :: OccursAt(s, t, i)
    decreases |s|
  {
    if StartsWith(s, t) {
      assert OccursAt(s, t, 0);
    } else {
      ContainsWitness(s[1..], t);
      var i: nat :| OccursAt(s[1..], t, i);
      assert s[1..][i..i + |t|] == s[i + 1..i + 1 + |t|];
      assert OccursAt(s, t, i + 1);
    }
  }

  /** The recursive substring test agrees with the positional definition. */
  lemma ContainsIff(s: string, t: string)
    ensures Contains(s, t) <==> exists i: nat :: OccursAt(s, t, i)
  {
    if Contains(s, t) {
      ContainsWitness(s, t);
    } else if exists i: nat :: OccursAt(s, t, i) {
      var i: nat :| OccursAt(s, t, i);
      ContainsAt(s, t, i);
    }
  }

  function LowerChar(c: char): char {
    if 'A' <= c <= 'Z' then (c as int + 32) as char else c
  }

  /** `str.lower()` restricted to ASCII letters. The scripts only compare the
      lowered text against ASCII words and digits, and no other character
      lowers to an ASCII letter other than 'i' and 'k', so the comparisons
      come out as in Python. */
  function AsciiLower(s: string): (r: string)
    ensures |r| == |s|
    ensures forall i :: 0 <= i < |s| ==> r[i] == LowerChar(s[i])
  {
    if s == [] then [] else [LowerChar(s[0])] + AsciiLower(s[1..])
  }

  predicate IsDigit(c: char) {
    '0' <= c <= '9'
  }

  predicate AllDigits(s: string) {
    forall i :: 0 <= i < |s| ==> IsDigit(s[i])
  }

  function DigitChar(d: nat): (c: char)
    requires d < 10
    ensures IsDigit(c)
  {
    (48 + d) as char
  }

  /** `'{}'.format(n)` for a natural number: its decimal digits, no leading zero. */
  function NatToDecimal(n: nat): (r: string)
    ensures |r| > 0 && AllDigits(r)
    ensures |r| > 1 ==> r[0] != '0'
  {
    if n < 10 then [DigitChar(n)] else NatToDecimal(n / 10) + [DigitChar(n % 10)]
  }

  /** `'{}'.format(i)` for any integer. */
  function IntToDecimal(i: int): (r: string)
    ensures i >= 0 ==> r == NatToDecimal(i)
    ensures i < 0 ==> r == "-" + NatToDecimal(-i)
  {
    if i >= 0 then NatToDecimal(i) else "-" + NatToDecimal(-i)
  }

  /** The number a string of decimal digits denotes. */
  function DecimalValue(s: string): nat
    requires AllDigits(s)
  {
    if s == [] then 0 else DecimalValue(s[..|s| - 1]) * 10 + (s[|s| - 1] as int - 48)
  }

  lemma {:induction false} DecimalRoundTrip(n: nat)
    ensures DecimalValue(NatToDecimal(n)) == n
  {
    if n >= 10 {
      var d := NatToDecimal(n);
      assert d[..|d| - 1] == NatToDecimal(n / 10);
      DecimalRoundTrip(n / 10);
    }
  }

  function Reverse<T>(s: seq<T>): (r: seq<T>)
    ensures |r| == |s|
    ensures forall i :: 0 <= i < |s| ==> r[i] == s[|s| - 1 - i]
  {
    if s == [] then [] else Reverse(s[1..]) + [s[0]]
  }

  /** Index of the last occurrence of `c` in `s` (`str.rfind`). */
  function LastIndex(s: string, c: char): (r: Option<nat>)
    ensures r.Some? ==> r.value < |s| && s[r.value] == c
                        && forall j :: r.value < j < |s| ==> s[j] != c
    ensures r.None? ==> forall j :: 0 <= j < |s| ==> s[j] != c
  {
    if s == [] then None
    else if s[|s| - 1] == c then Some(|s| - 1)
    else LastIndex(s[..|s| - 1], c)
  }
}
